=== FILE: README.md ===
# Movie MatchMaker core in Dafny

This project models the decision logic of Movie MatchMaker, a web front end
for The Movie Database (TMDB) catalogue. It covers three parts:

- **The catalog client** (`TMDBService` in `src/services/tmdbService.tsx`):
  - how the client picks its API key;
  - how it lazily fills its genre-id → name map, from the catalogue or from
    a built-in table of 19 defaults;
  - how a `MovieCriteria` becomes the ordered query parameters of a discovery
    request, and how a search query is built;
  - how a raw catalogue record, optionally with runtime and credits, becomes
    the application's `Movie`;
  - how responses become results or errors.
- **The pagination state machine** (`useMovies` in `src/hooks/useMovies.ts`):
  - discovery, search, "load more" and reset, each split into the state it
    shows while waiting plus the request it sends, and the state it shows
    once the request completes;
  - the two "last request" slots, modelled as one tagged value.
- **Device classification** (`useDeviceDetection` and `useShowDesktopControls`
  in `src/hooks/useDeviceDetection.ts`): breakpoints, the mobile user-agent
  override, and when desktop controls show.

Everything is pure functions over immutable datatypes. Network responses,
environment variables, the window width and the outcome of the user-agent
test are parameters.

| module | file | contents |
|---|---|---|
| `Wrappers` | `wrappers.dfy` | `Option`, `Result` |
| `Text` | `text.dfy` | the JavaScript string behaviour the core relies on: number rendering and parsing, ASCII lower-casing, `trim`, comma join/split, string sorting by code point (see "Left out") |
| `GenreCatalog` | `genre_catalog.dfy` | the genre map as an insertion-ordered list with `Map.set` semantics, the default table, lazy loading, name → id resolution, id → name lookup, `getGenres` |
| `Query` | `query.dfy` | `MovieCriteria`, the discovery and search parameter lists, and lemmas reading parameters back out |
| `Normalizer` | `normalizer.dfy` | `convertTMDBMovie` and `getMPAARating` |
| `Client` | `client.dfy` | key selection, genre initialisation, the request/response shape of each client operation |
| `Pagination` | `pagination.dfy` | the `useMovies` state machine and its invariant |
| `Device` | `device.dfy` | `checkDevice`, the default device, `useShowDesktopControls` |

Numbers that are floats in the source are held as integers in a fixed unit:
- a vote average is held in thousandths (7.345 is 7345);
- an IMDb-style score and a minimum rating are held in tenths (7.3 is 73).

Behaviours that follow the code as written, where a reader might expect
otherwise:
- The writer is the first crew member whose job is any of Screenplay, Writer
  or Story; no job takes precedence.
- A runtime of 0 gives no duration, like a missing runtime does.
- A negative runtime renders with the hours floored and the minutes keeping the runtime's sign: -5 gives `-1h -5m`, -60 gives `-1h 0m`.
- Loading genres never clears the map. A fetched list is merged in with
  `set`, and so is the default table.
- A successful genre fetch that lists nothing leaves the map empty, so the
  next discovery or search fetches again.
- A whitespace-only search is exactly a reset and sends nothing.
- "Load more" never clears the error, so a page can load while an earlier
  error is still shown.
- A failed discovery or search keeps the previous "last request", so a later
  "load more" continues the earlier query.
- An `Error` with an empty message is shown as the empty string, not as the
  fallback text.
- Duplicate genre names each resolve, and each id is sent once per name.
- Detail requests are converted against the genre map as it stands, without
  loading it first.

## Model

| member | source | states |
|---|---|---|
| Text.IntToStringRoundTrip | src/services/tmdbService.tsx:164 | a number's decimal rendering (`toString`) parses back, as a canonical integer without leading zeros, to the same number, so a movie id survives the conversion to a string |
| Text.TenthsToString | src/services/tmdbService.tsx:237 | `minRating.toString()` on a count of tenths reads back to exactly that count: a whole number renders as a plain integer, any other value as the integer part, a point and the tenths digit, with no leading zeros |
| Text.TrimEmptyIffBlank | src/hooks/useMovies.ts:59 | `trim()` gives the empty string exactly when every character is JavaScript whitespace |
| Text.LowerIdempotent | src/services/tmdbService.tsx:207 | lower-casing twice is the same as lower-casing once |
| Text.JoinIntsDecodes | src/services/tmdbService.tsx:215 | ids joined with commas split back into exactly as many parts, each parsing to the id in the same position |
| Text.SplitJoin | src/services/tmdbService.tsx:215 | splitting a comma-joined list of comma-free parts gives back the parts |
| Text.SortStrings | src/services/tmdbService.tsx:291 | `Array.sort()` on strings: the result is in code-point order and is a permutation of the input |
| Text.SortedPermutationUnique | src/services/tmdbService.tsx:291 | two sorted permutations of the same strings are equal, so the sorted genre list is fully determined by the map's names |
| GenreCatalog.Get | src/services/tmdbService.tsx:85 | a lookup finds a name only for an id the map holds, and finds nothing exactly when the id is absent |
| GenreCatalog.SetGet | src/services/tmdbService.tsx:106 | `Map.set` binds the id to the new name and leaves every other id's lookup unchanged |
| GenreCatalog.SetPlacement | src/services/tmdbService.tsx:106 | setting an existing id keeps the insertion order of ids; setting a new id appends it at the end |
| GenreCatalog.SetKeepsWellFormed | src/services/tmdbService.tsx:106 | a map with distinct ids keeps distinct ids after `set` |
| GenreCatalog.SetAll | src/services/tmdbService.tsx:105-107 | setting a list of entries in turn leaves each listed id bound to its last listed name and every other id as before |
| GenreCatalog.SetAllKeepsOrder | src/services/tmdbService.tsx:105-107 | setting a list of entries in turn never reorders or drops the ids already held: they stay first, in their order |
| GenreCatalog.SetAllKeepsWellFormed | src/services/tmdbService.tsx:105-107 | setting a list of entries in turn keeps ids distinct |
| GenreCatalog.SetAllFresh | src/services/tmdbService.tsx:125-127 | setting entries with fresh, distinct ids appends them in order |
| GenreCatalog.DefaultGenresWellFormed | src/services/tmdbService.tsx:117-123 | the default table has 19 entries with distinct ids |
| GenreCatalog.LoadGenres | src/services/tmdbService.tsx:105-127 | the fetched list, or the default table when the fetch fails, is merged in: every id is bound to its last name in that list, or keeps its earlier binding when the list does not name it; no id bound before is lost |
| GenreCatalog.FallbackBindsDefaults | src/services/tmdbService.tsx:108-127 | after a failed fetch every default id is bound to its default name, whatever the map held before |
| GenreCatalog.FallbackFromEmpty | src/services/tmdbService.tsx:116-127 | a failed fetch into an empty map yields exactly the default table, in its order |
| GenreCatalog.FallbackHasAction | src/services/tmdbService.tsx:118 | after a failed first fetch, 28 is "Action" |
| GenreCatalog.EnsureLoaded | src/services/tmdbService.tsx:190-192 | the genres are loaded only while the map is empty: an empty map becomes exactly what loading the fetch gives (the default table when the fetch fails), and a non-empty map is returned unchanged |
| GenreCatalog.EnsureLoadedOnce | src/services/tmdbService.tsx:190-192 | once a fetch has failed or returned at least one genre, the map is non-empty and later loads change nothing |
| GenreCatalog.EmptyGenreListFetchesAgain | src/services/tmdbService.tsx:105-107 | a successful fetch that lists no genres leaves the map empty, so the guard fires again next time |
| GenreCatalog.FirstMatch | src/services/tmdbService.tsx:206-210 | the search over entries finds nothing exactly when no name matches case-insensitively; otherwise it finds a match with no match before it |
| GenreCatalog.FindIdByName | src/services/tmdbService.tsx:204-211 | a name resolves to nothing exactly when no entry's name matches it ignoring case; otherwise it resolves to the id of the first matching entry in insertion order |
| GenreCatalog.ResolveOne | src/services/tmdbService.tsx:204-212 | one name contributes at most one id; it contributes one exactly when it resolves to an id that survives `filter(Boolean)` (non-zero), and that id is in the map |
| GenreCatalog.ResolveNames | src/services/tmdbService.tsx:204-212 | the resolved ids are no more than the names, all non-zero and all in the map |
| GenreCatalog.ResolveNamesEmpty | src/services/tmdbService.tsx:212-214 | no id resolves exactly when no requested name resolves |
| GenreCatalog.ResolveNamesAppend | src/services/tmdbService.tsx:204 | resolution maps over names one at a time, so it distributes over concatenation and keeps input order |
| GenreCatalog.ResolveSingle | src/services/tmdbService.tsx:204-212 | a single name resolves to its first matching id, or to nothing |
| GenreCatalog.ResolveIgnoresCase | src/services/tmdbService.tsx:207 | a name and its lower-cased form resolve to the same id |
| GenreCatalog.MatchesAction | src/services/tmdbService.tsx:207 | any spelling of "action" finds id 28 in the default table |
| GenreCatalog.ResolvesToAction | src/services/tmdbService.tsx:204-212 | requesting any spelling of "action" against the default table sends id 28 |
| GenreCatalog.ResolveAgainstDefaults | src/services/tmdbService.tsx:204-212 | after a failed first fetch, "action" and "ACTION" both resolve to 28 |
| GenreCatalog.NameOf | src/services/tmdbService.tsx:135 | an id contributes at most one name, and contributes one exactly when the map binds it to a non-empty name (`filter(Boolean)`), which is then that name |
| GenreCatalog.NamesOf | src/services/tmdbService.tsx:135 | a record has no more genre names than genre ids (what each id contributes is stated by NamesOfSingle and NamesOfAppend) |
| GenreCatalog.NamesOfSingle | src/services/tmdbService.tsx:135 | one id shows exactly its mapped name when the map binds it to a non-empty name, and nothing when it is unknown or bound to the empty string |
| GenreCatalog.NamesOfKnown | src/services/tmdbService.tsx:135 | every genre name of a record is non-empty and is a name the map holds |
| GenreCatalog.NamesOfAppend | src/services/tmdbService.tsx:135 | the id → name mapping distributes over concatenation, so order follows the record's ids |
| GenreCatalog.NamesOfAllKnown | src/services/tmdbService.tsx:135 | when every id has a non-empty name, the names are exactly those of the ids, one for one and in order |
| GenreCatalog.AllNames | src/services/tmdbService.tsx:290-292 | `getGenres` returns the map's names sorted, each name as often as the map holds it |
| Query.WireNamesDistinct | src/services/tmdbService.tsx:194-247 | no two query parameters share a wire name |
| Query.SortTokensDistinct | src/services/tmdbService.tsx:241-246 | the four sort keys map to four different tokens |
| Query.LookupAppended | src/services/tmdbService.tsx:202-247 | each optional filter, and the sort order, is present in the discovery query exactly when its guard holds, with its own value |
| Query.DiscoverParamsInOrder | src/services/tmdbService.tsx:194-247 | the discovery query lists each parameter at most once, in the order the client appends them |
| Query.DiscoverParamsEnds | src/services/tmdbService.tsx:194-247 | the five base parameters come first, and `sort_by` comes last |
| Query.DiscoverAlwaysSends | src/services/tmdbService.tsx:194-200 | every discovery carries the key, `en-US`, the page (1 when absent or zero), `include_adult` (`false` unless `true` was asked for) and `vote_count.gte=100` |
| Query.DiscoverGenreFilter | src/services/tmdbService.tsx:203-217 | `with_genres` is sent exactly when some requested name resolves, and its value splits into the resolved ids in input order |
| Query.DiscoverNoGenres | src/services/tmdbService.tsx:203 | an absent or empty genre list sends no `with_genres` |
| Query.DiscoverYearBounds | src/services/tmdbService.tsx:220-225 | year bounds are sent only when set and non-zero, as `Y-01-01` and `Y-12-31` |
| Query.YearBoundDecodes | src/services/tmdbService.tsx:221-224 | stripping the day suffix from a year bound gives back the year |
| Query.DiscoverRangeFilters | src/services/tmdbService.tsx:228-238 | runtime bounds and the rating floor are sent only when set and non-zero, with their values rendered as numbers |
| Query.DiscoverSortBy | src/services/tmdbService.tsx:241-247 | `sort_by` is always sent, as the requested key's token or `popularity.desc` |
| Query.SearchParamsSend | src/services/tmdbService.tsx:300-306 | a search sends the client's key as `api_key`, the text, the page and `en-US` as given, always `include_adult=false`, no vote-count floor, and no key twice |
| Normalizer.FirstWithJob | src/services/tmdbService.tsx:144-150 | the position found holds a member with one of the jobs, and no earlier member holds one |
| Normalizer.CrewName | src/services/tmdbService.tsx:144-151 | a crew-derived name is absent exactly when no member holds one of the jobs; otherwise it is the first such member's name |
| Normalizer.WriterIsFirstListed | src/services/tmdbService.tsx:148-151 | a Story credit listed before a Screenplay credit wins, so there is no precedence among writing jobs |
| Normalizer.InsertPerm | src/services/tmdbService.tsx:155 | insertion adds exactly the one member to the cast, losing and duplicating nobody |
| Normalizer.InsertByOrder | src/services/tmdbService.tsx:155 | inserting into a cast sorted by billing order keeps it sorted |
| Normalizer.InsertStable | src/services/tmdbService.tsx:155 | the inserted member goes ahead of every member billed alike, and their order is kept |
| Normalizer.SortByOrder | src/services/tmdbService.tsx:155 | sorting by `order` gives an ascending permutation of the cast |
| Normalizer.SortByOrderStable | src/services/tmdbService.tsx:155 | members with equal billing keep their relative order, as `Array.sort` guarantees |
| Normalizer.TopBilled | src/services/tmdbService.tsx:154-156 | the top-billed are three members (fewer for a smaller cast), taken from the cast, in billing order |
| Normalizer.TopBilledAreFirst | src/services/tmdbService.tsx:154-156 | anyone billed strictly ahead of a chosen member is chosen too |
| Normalizer.Starring | src/services/tmdbService.tsx:154-169 | `starring` is present exactly when credits are present and the cast is non-empty; it then holds min(3, cast size) names, the names of the top-billed members in billing order |
| Normalizer.StarringIsTopBilled | src/services/tmdbService.tsx:154-156 | whoever in the cast is billed strictly ahead of a starring member is starring too |
| Normalizer.JsRem | src/services/tmdbService.tsx:161 | JavaScript `%` differs from the dividend by a multiple of the divisor, lies strictly inside the divisor on the dividend's side of zero, and agrees with the mathematical remainder for a non-negative dividend |
| Normalizer.Duration | src/services/tmdbService.tsx:161 | a duration is present exactly when the runtime is present and non-zero; it then reads back, as two canonical numbers without leading zeros, to the floored hours and the JavaScript remainder of the runtime |
| Normalizer.DurationRoundTrip | src/services/tmdbService.tsx:161 | the rendered `…h …m` text reads back as the floored hours and the JavaScript remainder; for a non-negative runtime the minutes are below 60 and the two add up to the runtime again |
| Normalizer.ReadHoursMinutes | src/services/tmdbService.tsx:161 | any two numbers rendered as `<h>h <m>m` read back as exactly those two numbers |
| Normalizer.DurationExamples | src/services/tmdbService.tsx:161 | 125 minutes render as `2h 5m` and give the duration `2h 5m`; -5 minutes give `-1h -5m`; a runtime of 0 gives no duration |
| Normalizer.WholeNegativeHourExample | src/services/tmdbService.tsx:161 | -60 minutes give `-1h 0m`: the remainder is JavaScript's `-0`, which renders as `0` |
| Normalizer.Score | src/services/tmdbService.tsx:173 | the score is the vote average to the nearest tenth, with halves rounding up |
| Normalizer.Rating | src/services/tmdbService.tsx:181-185 | the rating is `R` exactly for adult titles and absent otherwise |
| Normalizer.ImageUrl | src/services/tmdbService.tsx:175-176 | an image URL is present exactly when the path is present and non-empty, and is the image base, the size segment and the path unchanged |
| Normalizer.Synopsis | src/services/tmdbService.tsx:166 | the synopsis is the overview when it is non-empty, and otherwise the fixed `No synopsis available.` |
| Normalizer.Convert | src/services/tmdbService.tsx:131-178 | the converted movie's fields follow from the record. The id parses back to the record's id. The year is present exactly when there is a release date. The score lies within half a tenth of the average. The rating is exactly that of `getMPAARating`: `R` for adult titles and absent otherwise. Genres are the record's ids mapped through the genre map, unknown and empty names dropped, so they are known, non-empty names, no more than the ids. The synopsis defaults to the fixed text. The duration is that of the detail runtime. No credits means no director, writer or starring. The poster uses the `/w500` size and the backdrop the `/w1280` size. |
| Normalizer.ConvertCredits | src/services/tmdbService.tsx:142-169 | with credits, the director and writer are the first crew members holding those jobs, and starring is the top-billed names |
| Normalizer.ConvertKnownGenres | src/services/tmdbService.tsx:135 | when the map names every genre id, the movie lists exactly those names in the record's order |
| Client.SelectApiKey | src/services/tmdbService.tsx:7-13 | a key is found exactly when one of the two variables is set and non-empty; it is the public key when that is set and non-empty, else the server key; otherwise it fails with the fixed message |
| Client.SelectApiKeyFirstNonEmpty | src/services/tmdbService.tsx:7-13 | key selection agrees with a reference reading: the first candidate, public before server, that is set and non-empty |
| Client.NewService | src/services/tmdbService.tsx:84-89 | construction succeeds exactly when a key is found; the client then holds the selected key and an empty genre map |
| Client.InitializeGenres | src/services/tmdbService.tsx:92-127 | initialisation keeps the key and never loses a bound genre; every id is bound to its last name in the response (in the default table when the fetch fails), or keeps its earlier binding when that list does not name it |
| Client.InitializeFallback | src/services/tmdbService.tsx:98-112 | a non-success status or a thrown error leaves every default genre bound |
| Client.Prepared | src/services/tmdbService.tsx:190-192 | the genres are initialised only while the map is empty; otherwise the client is unchanged |
| Client.PreparedOnce | src/services/tmdbService.tsx:190-192 | after one initialisation that failed or found genres, later calls never initialise again |
| Client.EmptyGenreResponseRefetches | src/services/tmdbService.tsx:105-107 | an empty genre list leaves the map empty |
| Client.ApiError | src/services/tmdbService.tsx:252-254 | the API error message is the fixed prefix followed by the status, which can be read back |
| Client.ListResult | src/services/tmdbService.tsx:249-262 | a list request succeeds exactly when its response does, and then every record is converted against the genre map, in order. A non-success status fails with the API error for that status. An unreadable body or a rejected fetch passes its error on. |
| Client.Discover | src/services/tmdbService.tsx:188-263 | a discovery keeps the key and leaves the client exactly as preparing the genres leaves it: unchanged when genres are loaded, loaded from the genre response on a first call (the default genres when that fetch fails). Its query is built against the prepared map. It succeeds exactly when the response does, with each record converted against the prepared map. |
| Client.Search | src/services/tmdbService.tsx:295-322 | a search leaves the client exactly as preparing the genres leaves it, the same way as a discovery, and sends the search query. It succeeds exactly when the response does, with each record converted against the prepared map. |
| Client.DiscoverKeepsLoadedGenres | src/services/tmdbService.tsx:190-192 | with genres loaded, a discovery neither changes the client nor depends on the genre response, and resolves names against the map as it stands |
| Client.DiscoverFallsBackToDefaults | src/services/tmdbService.tsx:108-111 | a first discovery whose genre fetch fails builds its query against exactly the default table |
| Client.SearchKeepsLoadedGenres | src/services/tmdbService.tsx:296-298 | with genres loaded, a search neither changes the client nor depends on the genre response |
| Client.SearchFallsBackToDefaults | src/services/tmdbService.tsx:296-298 | a first search whose genre fetch fails converts its results against exactly the default table |
| Client.GetDetails | src/services/tmdbService.tsx:266-287 | details succeed exactly when both responses succeed; the movie is then the record converted with its runtime and credits, so director and writer are the first matching crew members and starring the top-billed names. A rejected fetch passes its error on, the record's first. Otherwise a non-success status on either request fails with the fixed message. Only then does an unreadable body pass its error on, the record's first. |
| Client.StatusBeforeBody | src/services/tmdbService.tsx:273-278 | a non-success status on either detail request gives the fixed message even when the other body is unreadable, because both statuses are checked before either body is read |
| Client.DetailsExtendListing | src/services/tmdbService.tsx:131-178 | the detail movie equals the listing's conversion of the same record with director, writer, starring and duration filled in |
| Client.Genres | src/services/tmdbService.tsx:290-292 | the genre list is sorted and holds exactly the map's names |
| Pagination.DiscoverStart | src/hooks/useMovies.ts:34-37 | starting a discovery changes only loading (on) and the error (cleared), and asks for page 1 of the criteria as given |
| Pagination.DiscoverDone | src/hooks/useMovies.ts:38-54 | success replaces the list, sets page 1, clears the error, sets `hasMore` exactly for a full page of 20, and records the criteria as the last request. Failure keeps list, page, `hasMore` and last request, and shows the error's message or the fixed fallback. |
| Pagination.SearchStart | src/hooks/useMovies.ts:59-67 | blank text gives exactly the initial state and sends nothing; other text changes only loading (on) and the error (cleared), and asks for page 1 of the text |
| Pagination.SearchDone | src/hooks/useMovies.ts:68-84 | the same replace-or-keep rules as a discovery, with the search text recorded as the last request |
| Pagination.NextFetch | src/hooks/useMovies.ts:94-103 | "load more" replays the last search if there is one, else the last criteria with only the page changed, else empty criteria |
| Pagination.LoadMoreStart | src/hooks/useMovies.ts:89-94 | "load more" does nothing while loading or after a short page; otherwise it shows loading, keeps the error and asks for the next page |
| Pagination.LoadMoreDone | src/hooks/useMovies.ts:105-118 | success appends the page, advances to it, recomputes `hasMore` and keeps the error. Failure keeps list, page and `hasMore`, and shows the error. |
| Pagination.InitialValid | src/hooks/useMovies.ts:21-30 | the initial state is idle, on page 1, and remembers no blank search |
| Pagination.StepValid | src/hooks/useMovies.ts:33-142 | every action, run to completion, keeps the state idle, on a page of at least 1, and never remembering blank search text |
| Pagination.RunValid | src/hooks/useMovies.ts:33-142 | any sequence of actions keeps that invariant |
| Pagination.BlankSearchResets | src/hooks/useMovies.ts:59-62 | a blank search is exactly a reset, whatever came before, and sends nothing |
| Pagination.LoadMoreRequestsNextPage | src/hooks/useMovies.ts:89-103 | "load more" sends a request exactly when not loading and more may follow, always for the page after the current one |
| Pagination.LoadMoreExtends | src/hooks/useMovies.ts:105-111 | a loaded page keeps every movie already shown in place and advances the page by exactly one |
| Pagination.FailedDiscoverKeepsSearch | src/hooks/useMovies.ts:48-54 | after a search and then a failed discovery, the error shows and "load more" continues the search at page 2 |
| Pagination.ErrorOutlivesLoadMore | src/hooks/useMovies.ts:101-111 | after a failed first discovery, "load more" asks for page 2 of unfiltered results and shows them together with the earlier error |
| Pagination.TwoPages | src/hooks/useMovies.ts:37-111 | two full pages of a discovery show in order, page 2 of the same criteria is asked for, and more may follow |
| Pagination.ShortPageStops | src/hooks/useMovies.ts:89-109 | after a short page, "load more" does nothing and sends nothing |
| Device.Classify | src/hooks/useDeviceDetection.ts:21-41 | mobile exactly when narrower than 768 or on a mobile user agent; tablet exactly when 768 to 1023 wide without one; desktop exactly when 1024 or wider without one; width and touch reported as measured |
| Device.ClassifyMatchesKind | src/hooks/useDeviceDetection.ts:26-38 | each flag is set exactly for its kind of device, so exactly one of the three flags is set |
| Device.DesktopControlsWhen | src/hooks/useDeviceDetection.ts:63-69 | desktop controls show exactly on a screen at least 1024 wide, without touch and without a mobile user agent |
| Device.DefaultIsWideDesktop | src/hooks/useDeviceDetection.ts:12-18 | the default equals the classification of a 1024-wide screen without touch or mobile user agent, and shows desktop controls |

## Left out

- Network, JSON and `Promise.all` are not modelled. Each response is a parameter: a body; a non-success status; a success status whose body could not be read, with the error's message; or a rejected fetch, with its message.
- The request URLs of `getMovieDetails` (the record and credits paths with the key) are not modelled; only its two responses are.
- Client.GetDetails: when both detail requests throw, JavaScript reports whichever rejects first; the model reports the record request's error.
- Client.GetDetails: a record missing a field fails only inside the conversion, after both bodies are read, so when the credits body is also not valid JSON the source reports the credits error; the model has no missing-field case and treats every unreadable body alike.
- Client.GetDetails: the detail record's `genre_ids` is taken as delivered. The model does not know what the catalogue's detail endpoint actually returns.
- `URLSearchParams` percent-encoding and serialisation are out; a query is an ordered list of key/value pairs.
- Floats are out. A vote average is held in thousandths and a minimum rating in tenths, so binary rounding in `Math.round(v * 10)` is not modelled. Neither are ratings finer than a tenth, nor `NaN`.
- Number rendering covers integers only, without the exponent notation JavaScript uses from 10^21.
- `new Date(...).getFullYear()` depends on the time zone, so the release year is an input beside the release date. A `null` release date or overview is treated like the empty string.
- Environment variables are `Option` inputs to key selection. The module-level singleton that throws at load time is not modelled.
- Text.Lower: lower-cases ASCII letters only, where `toLowerCase` folds all of Unicode.
- Text.SortStrings: compares characters as code points, where `Array.sort` compares UTF-16 code units; the two differ only for characters outside the Basic Multilingual Plane.
- React mechanics are out: `useState`/`useCallback` closures and stale state, actions that overlap while a request is in flight, `useGenres`, `useMovie`, the `getMovieDetails` wrapper of the hook, and `console` logging.
- Window resize and orientation listeners are out, and so is the touch probe; the width and the touch flag are inputs.
- The mobile user-agent regular expression is out; its outcome is a boolean input.
- UI components, styling, Storybook and configuration files contain no core logic and are out.

=== FILE: client.dfy ===
/** The catalog client (`TMDBService` in src/services/tmdbService.tsx):
    its key selection, its lazily loaded genre map, the requests it
    issues, and how it turns responses into movies or errors. Responses
    are parameters: the network itself is not modelled. */
module Client {
  import opened Wrappers
  import opened Text
  import opened GenreCatalog
  import opened Query
  import opened Normalizer

  /** What a request came back with: a successful body; a non-success
      HTTP status; a success status whose body is not valid JSON, with the
      error's message;
      or a fetch that was itself rejected, with its message. */
  datatype Response<T> = Ok(body: T) | HttpError(status: int) | Unreadable(message: string) | Thrown(message: string)

  datatype Request = Request(path: string, params: seq<Param>)

  /** The client: its key and its genre map, empty until first loaded. */
  datatype Service = Service(apiKey: string, genres: GenreMap)

  const MissingKey: string :=
    "TMDB API key not found. Please set NEXT_PUBLIC_TMDB_API_KEY in your environment."

  /** `getApiKey`: the public key if set and non-empty, else the server
      key if set and non-empty, else an error. */
  function SelectApiKey(publicKey: Option<string>, serverKey: Option<string>): (r: Result<string>)
    ensures r.Success? <==> (publicKey.Some? && publicKey.value != "") || (serverKey.Some? && serverKey.value != "")
    ensures r.Success? ==> r.value != ""
    ensures publicKey.Some? && publicKey.value != "" ==> r == Success(publicKey.value)
    ensures (publicKey.None? || publicKey.value == "") && serverKey.Some? && serverKey.value != "" ==>
              r == Success(serverKey.value)
    ensures r.Failure? ==> r.message == MissingKey
  {
    if publicKey.Some? && publicKey.value != "" then Success(publicKey.value)
    else if serverKey.Some? && serverKey.value != "" then Success(serverKey.value)
    else Failure(MissingKey)
  }

  /** A reference reading of key selection: the first candidate, in order
      of preference, that is set to a non-empty value. */
  function FirstNonEmpty(keys: seq<Option<string>>): Option<string> {
    if keys == [] then None
    else if keys[0].Some? && keys[0].value != "" then keys[0]
    else FirstNonEmpty(keys[1..])
  }

  /** Key selection takes the first non-empty candidate, public before
      server, and fails exactly when there is none. */
  lemma SelectApiKeyFirstNonEmpty(publicKey: Option<string>, serverKey: Option<string>)
    ensures SelectApiKey(publicKey, serverKey) ==
              match FirstNonEmpty([publicKey, serverKey])
              case Some(k) => Success(k)
              case None => Failure(MissingKey)
  {
    assert [publicKey, serverKey][1..] == [serverKey];
    assert [serverKey][1..] == [];
    assert FirstNonEmpty([serverKey]) == if serverKey.Some? && serverKey.value != "" then serverKey else None;
  }

  /** The constructor: a key is required, and the genre map starts empty. */
  function NewService(publicKey: Option<string>, serverKey: Option<string>): (r: Result<Service>)
    ensures r.Success? <==> SelectApiKey(publicKey, serverKey).Success?
    ensures r.Success? ==> r.value.apiKey == SelectApiKey(publicKey, serverKey).value
    ensures r.Success? ==> r.value.apiKey != "" && NeedsGenres(r.value.genres)
  {
    match SelectApiKey(publicKey, serverKey)
    case Success(key) => Success(Service(key, []))
    case Failure(msg) => Failure(msg)
  }

  /** `initializeGenres`: merge the fetched genres into the map, or the
      default genres when the fetch fails in any way. The map is never
      cleared first. */
  function InitializeGenres(s: Service, resp: Response<seq<(int, string)>>): (r: Service)
    ensures r.apiKey == s.apiKey
    ensures forall k :: Get(s.genres, k).Some? ==> Get(r.genres, k).Some?
    ensures resp.Ok? ==> forall i :: 0 <= i < |resp.body| ==> Get(r.genres, resp.body[i].0).Some?
    ensures resp.Ok? ==>
              forall k :: Get(r.genres, k) == (if LastFor(resp.body, k).Some? then LastFor(resp.body, k) else Get(s.genres, k))
    ensures !resp.Ok? ==>
              forall k :: Get(r.genres, k) == (if LastFor(DefaultGenres, k).Some? then LastFor(DefaultGenres, k) else Get(s.genres, k))
  {
    s.(genres := LoadGenres(s.genres, if resp.Ok? then Some(resp.body) else None))
  }

  /** A failed genre fetch leaves every default genre bound to its name. */
  lemma InitializeFallback(s: Service, resp: Response<seq<(int, string)>>)
    requires !resp.Ok?
    ensures forall i :: 0 <= i < |DefaultGenres| ==>
              Get(InitializeGenres(s, resp).genres, DefaultGenres[i].0) == Some(DefaultGenres[i].1)
  {
    FallbackBindsDefaults(s.genres);
  }

  /** The lazy-loading guard shared by discovery and search: the genres
      are fetched only while the map is empty. */
  function Prepared(s: Service, genreResp: Response<seq<(int, string)>>): (r: Service)
    ensures r.apiKey == s.apiKey
    ensures !NeedsGenres(s.genres) ==> r == s
    ensures NeedsGenres(s.genres) ==> r == InitializeGenres(s, genreResp)
  {
    s.(genres := EnsureLoaded(s.genres, if genreResp.Ok? then Some(genreResp.body) else None))
  }

  /** Once the genres have loaded with at least one entry, or have fallen
      back to the defaults, they are never fetched again. */
  lemma PreparedOnce(s: Service, first: Response<seq<(int, string)>>, later: Response<seq<(int, string)>>)
    requires !first.Ok? || |first.body| > 0
    ensures !NeedsGenres(Prepared(s, first).genres)
    ensures Prepared(Prepared(s, first), later) == Prepared(s, first)
  {
    EnsureLoadedOnce(s.genres, if first.Ok? then Some(first.body) else None,
                     if later.Ok? then Some(later.body) else None);
  }

  /** A successful genre fetch that lists nothing leaves the map empty, so
      the next discovery or search fetches again. */
  lemma EmptyGenreResponseRefetches(key: string)
    ensures NeedsGenres(Prepared(Service(key, []), Ok([])).genres)
  {
    EmptyGenreListFetchesAgain();
  }

  const ApiErrorPrefix: string := "TMDB API error: "

  /** The message thrown for a non-success status. */
  function ApiError(status: int): (msg: string)
    ensures |msg| > |ApiErrorPrefix| && msg[..|ApiErrorPrefix|] == ApiErrorPrefix
    ensures ParseInt(msg[|ApiErrorPrefix|..]) == Some(status)
  {
    IntToStringRoundTrip(status);
    var msg := ApiErrorPrefix + IntToString(status);
    assert msg[..|ApiErrorPrefix|] == ApiErrorPrefix;
    assert msg[|ApiErrorPrefix|..] == IntToString(status);
    msg
  }

  /** The result of a list request: each record converted, in order, or
      the request's error. */
  function ListResult(m: GenreMap, resp: Response<seq<Record>>): (r: Result<seq<Movie>>)
    ensures r.Success? <==> resp.Ok?
    ensures r.Success? ==> |r.value| == |resp.body|
    ensures r.Success? ==> forall i :: 0 <= i < |resp.body| ==> r.value[i] == Convert(m, resp.body[i], None)
    ensures r.Success? ==> forall i :: 0 <= i < |resp.body| ==>
              ParseInt(r.value[i].id) == Some(resp.body[i].id) && r.value[i].title == resp.body[i].title
    ensures resp.HttpError? ==> r == Failure(ApiError(resp.status))
    ensures resp.Unreadable? || resp.Thrown? ==> r == Failure(resp.message)
  {
    match resp
    case Ok(records) => Success(seq(|records|, i requires 0 <= i < |records| => Convert(m, records[i], None)))
    case HttpError(status) => Failure(ApiError(status))
    case Unreadable(msg) => Failure(msg)
    case Thrown(msg) => Failure(msg)
  }

  /** One call to the client: its state afterwards, the request it made,
      and what it returned. */
  datatype Call<T> = Call(service: Service, request: Request, result: Result<T>)

  const DiscoverPath: string := "/discover/movie"
  const SearchPath: string := "/search/movie"

  /** `discoverMovies(criteria)`: prepare the genres, build the query
      against them, convert the results against them. */
  function Discover(s: Service, c: Criteria, genreResp: Response<seq<(int, string)>>,
                    resp: Response<seq<Record>>): (r: Call<seq<Movie>>)
    ensures r.service == Prepared(s, genreResp)
    ensures r.service.apiKey == s.apiKey
    ensures !NeedsGenres(s.genres) ==> r.service == s
    ensures NeedsGenres(s.genres) && !genreResp.Ok? ==> r.service.genres == DefaultGenres
    ensures r.request.path == DiscoverPath
    ensures r.request.params == DiscoverParams(r.service.genres, s.apiKey, c)
    ensures r.result.Success? <==> resp.Ok?
    ensures r.result.Success? ==> |r.result.value| == |resp.body|
    ensures r.result.Success? ==>
              forall i :: 0 <= i < |resp.body| ==> r.result.value[i] == Convert(r.service.genres, resp.body[i], None)
  {
    var p := Prepared(s, genreResp);
    Call(p, Request(DiscoverPath, DiscoverParams(p.genres, s.apiKey, c)), ListResult(p.genres, resp))
  }

  /** `searchMovies(query, page)`: the same genre preparation, then the
      search query. */
  function Search(s: Service, query: string, page: int, genreResp: Response<seq<(int, string)>>,
                  resp: Response<seq<Record>>): (r: Call<seq<Movie>>)
    ensures r.service == Prepared(s, genreResp)
    ensures r.service.apiKey == s.apiKey
    ensures !NeedsGenres(s.genres) ==> r.service == s
    ensures NeedsGenres(s.genres) && !genreResp.Ok? ==> r.service.genres == DefaultGenres
    ensures r.request.path == SearchPath
    ensures r.request.params == SearchParams(s.apiKey, query, page)
    ensures r.result.Success? <==> resp.Ok?
    ensures r.result.Success? ==> |r.result.value| == |resp.body|
    ensures r.result.Success? ==>
              forall i :: 0 <= i < |resp.body| ==> r.result.value[i] == Convert(r.service.genres, resp.body[i], None)
  {
    var p := Prepared(s, genreResp);
    Call(p, Request(SearchPath, SearchParams(s.apiKey, query, page)), ListResult(p.genres, resp))
  }

  /** With genres already loaded, a discovery neither changes the client
      nor depends on the genre response, and its query resolves genre
      names against the map as it stands. */
  lemma DiscoverKeepsLoadedGenres(s: Service, c: Criteria, g1: Response<seq<(int, string)>>,
                                  g2: Response<seq<(int, string)>>, resp: Response<seq<Record>>)
    requires !NeedsGenres(s.genres)
    ensures Discover(s, c, g1, resp) == Discover(s, c, g2, resp)
    ensures Discover(s, c, g1, resp).service == s
    ensures Discover(s, c, g1, resp).request.params == DiscoverParams(s.genres, s.apiKey, c)
  {
  }

  /** A discovery against an empty map whose genre fetch fails resolves
      names against the default genres. */
  lemma DiscoverFallsBackToDefaults(key: string, c: Criteria, g: Response<seq<(int, string)>>,
                                    resp: Response<seq<Record>>)
    requires !g.Ok?
    ensures Discover(Service(key, []), c, g, resp).request.params == DiscoverParams(DefaultGenres, key, c)
  {
  }

  /** The same genre preparation for a search: with genres loaded, a
      search changes nothing and ignores the genre response. */
  lemma SearchKeepsLoadedGenres(s: Service, query: string, page: int, g1: Response<seq<(int, string)>>,
                                g2: Response<seq<(int, string)>>, resp: Response<seq<Record>>)
    requires !NeedsGenres(s.genres)
    ensures Search(s, query, page, g1, resp) == Search(s, query, page, g2, resp)
    ensures Search(s, query, page, g1, resp).service == s
  {
  }

  /** A first search whose genre fetch fails converts its results against
      the default genres. */
  lemma SearchFallsBackToDefaults(key: string, query: string, page: int, g: Response<seq<(int, string)>>,
                                  resp: Response<seq<Record>>)
    requires !g.Ok?
    ensures Search(Service(key, []), query, page, g, resp).service.genres == DefaultGenres
    ensures Search(Service(key, []), query, page, g, resp).result == ListResult(DefaultGenres, resp)
  {
  }

  const DetailsFailed: string := "Failed to fetch movie details"

  /** `getMovieDetails(id)`: the record and its credits are fetched
      together. A rejected fetch fails with its own message (the record's
      first). Both statuses are checked next: a non-success status from
      either fails with a fixed message. Only then are the bodies read, the
      record's first. Otherwise the record is converted with its runtime
      and credits. The genre map is used as it stands, without loading. */
  function GetDetails(s: Service, movie: Response<(Record, Option<int>)>, credits: Response<Credits>): (r: Result<Movie>)
    ensures r.Success? <==> movie.Ok? && credits.Ok?
    ensures r.Success? ==> r.value == Convert(s.genres, movie.body.0, Some(Details(movie.body.1, Some(credits.body))))
    ensures r.Success? ==> r.value.id == IntToString(movie.body.0.id)
    ensures r.Success? ==> r.value.duration == Duration(movie.body.1)
    ensures r.Success? ==> r.value.director == CrewName(credits.body.crew, DirectorJobs)
    ensures r.Success? ==> r.value.writer == CrewName(credits.body.crew, WriterJobs)
    ensures r.Success? ==> r.value.starring == Starring(Some(credits.body))
    ensures movie.Thrown? ==> r == Failure(movie.message)
    ensures !movie.Thrown? && credits.Thrown? ==> r == Failure(credits.message)
    ensures !movie.Thrown? && !credits.Thrown? && (movie.HttpError? || credits.HttpError?) ==> r == Failure(DetailsFailed)
    ensures movie.Unreadable? && (credits.Ok? || credits.Unreadable?) ==> r == Failure(movie.message)
    ensures movie.Ok? && credits.Unreadable? ==> r == Failure(credits.message)
  {
    if movie.Thrown? then Failure(movie.message)
    else if credits.Thrown? then Failure(credits.message)
    else if movie.HttpError? || credits.HttpError? then Failure(DetailsFailed)
    else if movie.Unreadable? then Failure(movie.message)
    else if credits.Unreadable? then Failure(credits.message)
    else
      var (rec, runtime) := movie.body;
      var d := Details(runtime, Some(credits.body));
      ConvertCredits(s.genres, rec, d);
      Success(Convert(s.genres, rec, Some(d)))
  }

  /** A status failure outranks an unreadable body: whatever the bodies
      hold, a non-success status on either request gives the fixed
      message, unless a fetch was rejected outright. */
  lemma StatusBeforeBody(s: Service, status: int, msg: string, rec: (Record, Option<int>), credits: Credits)
    ensures GetDetails(s, Unreadable(msg), HttpError(status)) == Failure(DetailsFailed)
    ensures GetDetails(s, HttpError(status), Unreadable(msg)) == Failure(DetailsFailed)
    ensures GetDetails(s, Ok(rec), HttpError(status)) == Failure(DetailsFailed)
    ensures GetDetails(s, HttpError(status), Ok(credits)) == Failure(DetailsFailed)
  {
  }

  /** The detail view is the listing's movie with the detail-only fields
      filled in: the same record gives the same id, title, synopsis,
      score, rating, year, genres and images either way. */
  lemma DetailsExtendListing(s: Service, rec: Record, runtime: Option<int>, credits: Credits)
    ensures GetDetails(s, Ok((rec, runtime)), Ok(credits)) ==
              Success(Convert(s.genres, rec, None).(
                director := CrewName(credits.crew, DirectorJobs),
                writer := CrewName(credits.crew, WriterJobs),
                starring := Starring(Some(credits)),
                duration := Duration(runtime)))
  {
  }

  /** `getGenres()`: every genre name in the map, sorted. */
  function Genres(s: Service): (names: seq<string>)
    ensures SortedStrings(names)
    ensures multiset(names) == multiset(Names(s.genres))
  {
    AllNames(s.genres)
  }
}

=== FILE: device.dfy ===
/** Device classification (`useDeviceDetection` and `useShowDesktopControls`
    in src/hooks/useDeviceDetection.ts). The window width, the touch probe
    and the outcome of the mobile user-agent test are inputs; listening for
    resizes is not modelled. */
module Device {
  datatype DeviceInfo = DeviceInfo(
    isMobile: bool,
    isTablet: bool,
    isDesktop: bool,
    hasTouch: bool,
    screenWidth: int)

  /** Widths below this are phones. */
  const TabletFrom: int := 768

  /** Widths from this up are desktops. */
  const DesktopFrom: int := 1024

  /** What the hook reports before its first measurement. */
  const DefaultDevice: DeviceInfo := DeviceInfo(false, false, true, false, 1024)

  /** `checkDevice` given the width, the touch probe and the outcome of the
      user-agent test: a mobile user agent makes the device mobile, and
      neither tablet nor desktop, whatever the width. */
  function Classify(width: int, hasTouch: bool, mobileAgent: bool): (d: DeviceInfo)
    ensures d.screenWidth == width && d.hasTouch == hasTouch
    ensures d.isMobile <==> width < TabletFrom || mobileAgent
    ensures d.isTablet <==> TabletFrom <= width < DesktopFrom && !mobileAgent
    ensures d.isDesktop <==> DesktopFrom <= width && !mobileAgent
  {
    DeviceInfo(
      width < TabletFrom || mobileAgent,
      TabletFrom <= width < DesktopFrom && !mobileAgent,
      DesktopFrom <= width && !mobileAgent,
      hasTouch,
      width)
  }

  /** A reference classification into exactly one kind of device. */
  datatype Kind = Phone | Tablet | Desktop

  function KindOf(width: int, mobileAgent: bool): Kind {
    if mobileAgent || width < TabletFrom then Phone
    else if width < DesktopFrom then Tablet
    else Desktop
  }

  /** Every measurement sets exactly the flag of its kind, so exactly one
      of the three flags is set. */
  lemma ClassifyMatchesKind(width: int, hasTouch: bool, mobileAgent: bool)
    ensures var d := Classify(width, hasTouch, mobileAgent); var k := KindOf(width, mobileAgent);
            (d.isMobile <==> k == Phone) && (d.isTablet <==> k == Tablet) && (d.isDesktop <==> k == Desktop)
    ensures var d := Classify(width, hasTouch, mobileAgent);
            (if d.isMobile then 1 else 0) + (if d.isTablet then 1 else 0) + (if d.isDesktop then 1 else 0) == 1
  {
  }

  /** `isDesktop && !hasTouch`. */
  function ShowDesktopControls(d: DeviceInfo): bool {
    d.isDesktop && !d.hasTouch
  }

  /** Desktop controls show exactly on a wide screen without touch and
      without a mobile user agent. */
  lemma DesktopControlsWhen(width: int, hasTouch: bool, mobileAgent: bool)
    ensures ShowDesktopControls(Classify(width, hasTouch, mobileAgent))
            <==> DesktopFrom <= width && !hasTouch && !mobileAgent
  {
  }

  /** The default is what a 1024-wide screen without touch or a mobile
      user agent measures as, and it shows desktop controls. */
  lemma DefaultIsWideDesktop()
    ensures DefaultDevice == Classify(1024, false, false)
    ensures ShowDesktopControls(DefaultDevice)
  {
  }
}

=== FILE: genre_catalog.dfy ===
/** The catalog client's genre map (`TMDBService.genreMap`): an
    insertion-ordered `Map<number, string>` from provider genre ids to
    display names, filled from the provider's genre list or, when that
    fetch fails, from a fixed table of 19 genres. */
module GenreCatalog {
  import opened Wrappers
  import opened Text

  /** A JavaScript `Map<number, string>`: entries in insertion order. */
  type GenreMap = seq<(int, string)>

  /** `map.keys()`, in insertion order. */
  function Ids(m: GenreMap): (ids: seq<int>)
    ensures |ids| == |m|
    ensures forall i :: 0 <= i < |m| ==> ids[i] == m[i].0
    decreases |m|
  {
    if m == [] then [] else [m[0].0] + Ids(m[1..])
  }

  /** `map.values()`, in insertion order. */
  function Names(m: GenreMap): (names: seq<string>)
    ensures |names| == |m|
    ensures forall i :: 0 <= i < |m| ==> names[i] == m[i].1
  {
    seq(|m|, i requires 0 <= i < |m| => m[i].1)
  }

  /** No id occurs twice, as in every `Map`. */
  predicate WellFormed(m: GenreMap) {
    forall i, j :: 0 <= i < j < |m| ==> m[i].0 != m[j].0
  }

  /** `map.get(id)`. */
  function Get(m: GenreMap, id: int): (r: Option<string>)
    ensures r.Some? ==> (id, r.value) in m
    ensures r.None? <==> id !in Ids(m)
    decreases |m|
  {
    if m == [] then None
    else if m[0].0 == id then Some(m[0].1)
    else Get(m[1..], id)
  }

  /** `map.set(id, name)`: an existing id keeps its place and takes the new
      name; a new id is appended. */
  function Set(m: GenreMap, id: int, name: string): GenreMap
    decreases |m|
  {
    if m == [] then [(id, name)]
    else if m[0].0 == id then [(id, name)] + m[1..]
    else [m[0]] + Set(m[1..], id, name)
  }

  /** After `set`, the id reads back the new name and every other id reads
      what it read before. */
  lemma {:induction false} SetGet(m: GenreMap, id: int, name: string, k: int)
    ensures Get(Set(m, id, name), k) == if k == id then Some(name) else Get(m, k)
    decreases |m|
  {
    if m != [] && m[0].0 != id {
      SetGet(m[1..], id, name, k);
    }
  }

  /** Where `map.set` puts the entry: in place for a known id, at the end
      for a new one. */
  lemma {:induction false} SetPlacement(m: GenreMap, id: int, name: string)
    ensures id in Ids(m) ==> Ids(Set(m, id, name)) == Ids(m)
    ensures id !in Ids(m) ==> Set(m, id, name) == m + [(id, name)]
  {
    if id in Ids(m) {
      SetKnown(m, id, name);
    } else {
      assert forall i :: 0 <= i < |m| ==> Ids(m)[i] == m[i].0;
      SetNew(m, id, name);
    }
  }

  lemma {:induction false} SetKnown(m: GenreMap, id: int, name: string)
    requires id in Ids(m)
    ensures Ids(Set(m, id, name)) == Ids(m)
    decreases |m|
  {
    var r := Set(m, id, name);
    assert Ids(m) == [m[0].0] + Ids(m[1..]);
    if m[0].0 == id {
      assert r[1..] == m[1..];
      assert Ids(r) == [id] + Ids(m[1..]);
    } else {
      var t := Set(m[1..], id, name);
      assert r == [m[0]] + t && r[1..] == t;
      SetKnown(m[1..], id, name);
      assert Ids(r) == [m[0].0] + Ids(t);
    }
  }

  lemma {:induction false} SetNew(m: GenreMap, id: int, name: string)
    requires forall i :: 0 <= i < |m| ==> m[i].0 != id
    ensures Set(m, id, name) == m + [(id, name)]
    decreases |m|
  {
    if m != [] {
      var rest := m[1..];
      assert forall i :: 0 <= i < |rest| ==> rest[i] == m[i + 1];
      SetNew(rest, id, name);
      calc {
        Set(m, id, name);
        [m[0]] + Set(rest, id, name);
        [m[0]] + (rest + [(id, name)]);
        ([m[0]] + rest) + [(id, name)];
        { assert [m[0]] + rest == m; }
        m + [(id, name)];
      }
    }
  }

  lemma SetKeepsWellFormed(m: GenreMap, id: int, name: string)
    requires WellFormed(m)
    ensures WellFormed(Set(m, id, name))
  {
    var r := Set(m, id, name);
    SetPlacement(m, id, name);
    if id in Ids(m) {
      assert Ids(r) == Ids(m);
      forall i, j | 0 <= i < j < |r| ensures r[i].0 != r[j].0 {
        assert Ids(r)[i] == Ids(m)[i] && Ids(r)[j] == Ids(m)[j];
      }
    } else {
      forall i, j | 0 <= i < j < |r| ensures r[i].0 != r[j].0 {
        if j == |m| {
          assert Ids(m)[i] == r[i].0;
        }
      }
    }
  }

  /** The name the LAST entry for `id` in `entries` carries, if any. */
  function LastFor(entries: seq<(int, string)>, id: int): (r: Option<string>)
    ensures r.None? <==> forall i :: 0 <= i < |entries| ==> entries[i].0 != id
    ensures r.Some? ==> exists i :: 0 <= i < |entries| && entries[i] == (id, r.value)
    decreases |entries|
  {
    if entries == [] then None
    else if entries[|entries| - 1].0 == id then Some(entries[|entries| - 1].1)
    else LastFor(entries[..|entries| - 1], id)
  }

  /** `entries.forEach(([id, name]) => map.set(id, name))`: later entries
      win, ids already present keep their place, nothing is removed. */
  function SetAll(m: GenreMap, entries: seq<(int, string)>): (r: GenreMap)
    ensures forall k :: Get(r, k) == (if LastFor(entries, k).Some? then LastFor(entries, k) else Get(m, k))
    decreases |entries|
  {
    if entries == [] then m
    else
      var n := |entries| - 1;
      var prev := SetAll(m, entries[..n]);
      forall k ensures Get(Set(prev, entries[n].0, entries[n].1), k)
                       == (if LastFor(entries, k).Some? then LastFor(entries, k) else Get(m, k)) {
        SetGet(prev, entries[n].0, entries[n].1, k);
      }
      Set(prev, entries[n].0, entries[n].1)
  }

  /** Merging keeps the ids already present first, in their order. */
  lemma {:induction false} SetAllKeepsOrder(m: GenreMap, entries: seq<(int, string)>)
    ensures |m| <= |SetAll(m, entries)| && Ids(SetAll(m, entries))[..|m|] == Ids(m)
    decreases |entries|
  {
    if entries != [] {
      var n := |entries| - 1;
      var prev := SetAll(m, entries[..n]);
      var r := Set(prev, entries[n].0, entries[n].1);
      SetAllKeepsOrder(m, entries[..n]);
      SetPlacement(prev, entries[n].0, entries[n].1);
      assert |prev| <= |r|;
      assert Ids(r)[..|prev|] == Ids(prev);
      assert Ids(r)[..|m|] == Ids(prev)[..|m|];
    }
  }

  lemma {:induction false} SetAllKeepsWellFormed(m: GenreMap, entries: seq<(int, string)>)
    requires WellFormed(m)
    ensures WellFormed(SetAll(m, entries))
    decreases |entries|
  {
    if entries != [] {
      var n := |entries| - 1;
      SetAllKeepsWellFormed(m, entries[..n]);
      SetKeepsWellFormed(SetAll(m, entries[..n]), entries[n].0, entries[n].1);
    }
  }

  lemma WellFormedPrefix(s: GenreMap, n: nat)
    requires WellFormed(s) && n <= |s|
    ensures WellFormed(s[..n])
  {
  }

  /** The last entry of a well-formed map carries an id no earlier entry has. */
  lemma LastIdIsFresh(s: GenreMap)
    requires WellFormed(s) && |s| > 0
    ensures s[|s| - 1].0 !in Ids(s[..|s| - 1])
  {
    var p := s[..|s| - 1];
    forall i | 0 <= i < |p| ensures Ids(p)[i] != s[|s| - 1].0 {
      assert Ids(p)[i] == s[i].0;
    }
  }

  /** Merging fresh, distinct ids just appends them in order. */
  lemma {:induction false} SetAllFresh(m: GenreMap, entries: seq<(int, string)>)
    requires WellFormed(m + entries)
    ensures SetAll(m, entries) == m + entries
    decreases |entries|
  {
    if entries != [] {
      var n := |entries| - 1;
      var all := m + entries;
      var prev := m + entries[..n];
      assert prev == all[..|all| - 1];
      assert all == prev + [entries[n]];
      WellFormedPrefix(all, |all| - 1);
      SetAllFresh(m, entries[..n]);
      LastIdIsFresh(all);
      SetPlacement(prev, entries[n].0, entries[n].1);
    }
  }

  /** The fallback table used when the genre list cannot be fetched. */
  const DefaultGenres: seq<(int, string)> := [
    (28, "Action"), (12, "Adventure"), (16, "Animation"), (35, "Comedy"),
    (80, "Crime"), (99, "Documentary"), (18, "Drama"), (10751, "Family"),
    (14, "Fantasy"), (36, "History"), (27, "Horror"), (10402, "Music"),
    (9648, "Mystery"), (10749, "Romance"), (878, "Science Fiction"),
    (10770, "TV Movie"), (53, "Thriller"), (10752, "War"), (37, "Western")
  ]

  lemma DefaultGenresWellFormed()
    ensures |DefaultGenres| == 19 && WellFormed(DefaultGenres)
  {
  }

  /** `initializeGenres` after the fetch settled: `fetched` is the
      provider's genre list, or `None` when the request failed in any way
      (non-success status, network error, unreadable body). Either way the
      entries are merged into `m`; nothing is cleared. */
  function LoadGenres(m: GenreMap, fetched: Option<seq<(int, string)>>): (r: GenreMap)
    ensures fetched.Some? ==> forall i :: 0 <= i < |fetched.value| ==> Get(r, fetched.value[i].0).Some?
    ensures forall k :: Get(m, k).Some? ==> Get(r, k).Some?
    ensures fetched.Some? ==>
              forall k :: Get(r, k) == (if LastFor(fetched.value, k).Some? then LastFor(fetched.value, k) else Get(m, k))
    ensures fetched.None? ==>
              forall k :: Get(r, k) == (if LastFor(DefaultGenres, k).Some? then LastFor(DefaultGenres, k) else Get(m, k))
  {
    match fetched
    case Some(genres) => SetAll(m, genres)
    case None => SetAll(m, DefaultGenres)
  }

  /** After a failed fetch every default pair is in the map, whatever it
      held before. */
  lemma FallbackBindsDefaults(m: GenreMap)
    ensures forall i :: 0 <= i < |DefaultGenres| ==> Get(LoadGenres(m, None), DefaultGenres[i].0) == Some(DefaultGenres[i].1)
  {
    forall i | 0 <= i < |DefaultGenres|
      ensures LastFor(DefaultGenres, DefaultGenres[i].0) == Some(DefaultGenres[i].1)
    {
      DefaultGenresWellFormed();
      LastForUnique(DefaultGenres, i);
    }
  }

  /** In an entry list without repeated ids, the last entry for an id is its only one. */
  lemma {:induction false} LastForUnique(entries: seq<(int, string)>, i: nat)
    requires WellFormed(entries) && i < |entries|
    ensures LastFor(entries, entries[i].0) == Some(entries[i].1)
    decreases |entries|
  {
    var n := |entries| - 1;
    if i < n {
      assert entries[n].0 != entries[i].0;
      assert WellFormed(entries[..n]);
      LastForUnique(entries[..n], i);
    }
  }

  /** A failed fetch into an empty map yields exactly the 19 default
      pairs, in table order. */
  lemma FallbackFromEmpty()
    ensures LoadGenres([], None) == DefaultGenres
  {
    DefaultGenresWellFormed();
    assert [] + DefaultGenres == DefaultGenres;
    SetAllFresh([], DefaultGenres);
  }

  /** For instance, id 28 maps to "Action" after a failed fetch. */
  lemma FallbackHasAction()
    ensures Get(LoadGenres([], None), 28) == Some("Action")
  {
    FallbackFromEmpty();
  }

  /** The lazy-initialisation guard in `discoverMovies` and `searchMovies`:
      the genre list is fetched only while the map is empty. */
  predicate NeedsGenres(m: GenreMap) {
    |m| == 0
  }

  /** The map after the guard: `fetched` is what the fetch would deliver,
      used only when the guard fires. */
  function EnsureLoaded(m: GenreMap, fetched: Option<seq<(int, string)>>): (r: GenreMap)
    ensures !NeedsGenres(m) ==> r == m
    ensures NeedsGenres(m) ==> r == LoadGenres(m, fetched)
    ensures NeedsGenres(m) && fetched.None? ==> r == DefaultGenres
  {
    if NeedsGenres(m) then
      FallbackFromEmpty();
      LoadGenres(m, fetched)
    else m
  }

  /** The guard fires at most once, unless the provider answered with an
      empty genre list. */
  lemma EnsureLoadedOnce(m: GenreMap, first: Option<seq<(int, string)>>, second: Option<seq<(int, string)>>)
    requires first.None? || |first.value| > 0
    ensures !NeedsGenres(EnsureLoaded(m, first))
    ensures EnsureLoaded(EnsureLoaded(m, first), second) == EnsureLoaded(m, first)
  {
    if NeedsGenres(m) && first.Some? {
      var r := EnsureLoaded(m, first);
      assert Get(r, first.value[0].0).Some?;
    }
  }

  /** An empty but successful genre list leaves the map empty, so the next
      discover or search fetches the list again. */
  lemma EmptyGenreListFetchesAgain()
    ensures NeedsGenres(EnsureLoaded([], Some([])))
  {
  }

  // ---------------------------------------------------------------------
  // Name <-> id resolution
  // ---------------------------------------------------------------------

  /** The names compare equal ignoring ASCII case. */
  predicate SameName(a: string, b: string) {
    Lower(a) == Lower(b)
  }

  /** Position of the first entry, in insertion order, whose name matches
      `name` ignoring case (the `for ... of genreMap.entries()` scan). */
  function FirstMatch(m: GenreMap, name: string): (r: Option<nat>)
    ensures r.None? <==> forall i :: 0 <= i < |m| ==> !SameName(m[i].1, name)
    ensures r.Some? ==> r.value < |m| && SameName(m[r.value].1, name)
    ensures r.Some? ==> forall j :: 0 <= j < r.value ==> !SameName(m[j].1, name)
    decreases |m|
  {
    if m == [] then None
    else if SameName(m[0].1, name) then Some(0)
    else
      match FirstMatch(m[1..], name)
      case None => None
      case Some(k) =>
        assert forall j :: 0 < j < k + 1 ==> m[j] == m[1..][j - 1];
        Some(k + 1)
  }

  /** The id the scan returns for `name`, if any entry matches. */
  function FindIdByName(m: GenreMap, name: string): (r: Option<int>)
    ensures r.None? <==> FirstMatch(m, name).None?
    ensures r.Some? ==> r.value == m[FirstMatch(m, name).value].0
    ensures r.Some? ==> r.value in Ids(m)
  {
    match FirstMatch(m, name)
    case None => None
    case Some(i) =>
      assert Ids(m)[i] == m[i].0;
      Some(m[i].0)
  }

  /** A name is resolved when it matches an entry whose id is truthy
      (`filter(Boolean)` also drops an id of 0). */
  predicate Resolves(m: GenreMap, name: string) {
    var r := FindIdByName(m, name);
    r.Some? && r.value != 0
  }

  /** What one name contributes: its id when it resolves, else nothing. */
  function ResolveOne(m: GenreMap, name: string): (ids: seq<int>)
    ensures |ids| <= 1
    ensures ids != [] <==> Resolves(m, name)
    ensures forall i :: 0 <= i < |ids| ==> ids[i] != 0 && ids[i] in Ids(m)
  {
    if Resolves(m, name) then [FindIdByName(m, name).value] else []
  }

  /** `criteria.genres.map(<lookup id by name>).filter(Boolean)`. */
  function ResolveNames(m: GenreMap, names: seq<string>): (ids: seq<int>)
    ensures |ids| <= |names|
    ensures forall i :: 0 <= i < |ids| ==> ids[i] != 0 && ids[i] in Ids(m)
    decreases |names|
  {
    if names == [] then [] else ResolveOne(m, names[0]) + ResolveNames(m, names[1..])
  }

  /** No id comes out exactly when no name resolves; in particular an
      empty name list, or names the map does not know, yield none. */
  lemma {:induction false} ResolveNamesEmpty(m: GenreMap, names: seq<string>)
    ensures ResolveNames(m, names) == [] <==> forall i :: 0 <= i < |names| ==> !Resolves(m, names[i])
    decreases |names|
  {
    if names != [] {
      ResolveNamesEmpty(m, names[1..]);
      var one := ResolveOne(m, names[0]);
      var rest := ResolveNames(m, names[1..]);
      assert ResolveNames(m, names) == one + rest;
      assert (one + rest == []) <==> (one == [] && rest == []);
      assert forall i :: 1 <= i < |names| ==> names[i] == names[1..][i - 1];
    }
  }

  /** Resolution works name by name: resolving a concatenation resolves
      each part, in input order. */
  lemma {:induction false} ResolveNamesAppend(m: GenreMap, a: seq<string>, b: seq<string>)
    ensures ResolveNames(m, a + b) == ResolveNames(m, a) + ResolveNames(m, b)
    decreases |a|
  {
    if a != [] {
      assert (a + b)[0] == a[0];
      assert (a + b)[1..] == a[1..] + b;
      ResolveNamesAppend(m, a[1..], b);
      calc {
        ResolveNames(m, a + b);
        ResolveOne(m, a[0]) + ResolveNames(m, a[1..] + b);
        ResolveOne(m, a[0]) + (ResolveNames(m, a[1..]) + ResolveNames(m, b));
        (ResolveOne(m, a[0]) + ResolveNames(m, a[1..])) + ResolveNames(m, b);
      }
    } else {
      assert a + b == b;
    }
  }

  /** A single name resolves to the id of its first case-insensitive match. */
  lemma ResolveSingle(m: GenreMap, name: string)
    ensures ResolveNames(m, [name]) == (if Resolves(m, name) then [FindIdByName(m, name).value] else [])
  {
    assert [name][1..] == [];
    assert ResolveNames(m, [name]) == ResolveOne(m, name) + ResolveNames(m, []);
  }

  /** The scan looks at a name only through its lower-cased form. */
  lemma {:induction false} FirstMatchByLower(m: GenreMap, a: string, b: string)
    requires Lower(a) == Lower(b)
    ensures FirstMatch(m, a) == FirstMatch(m, b)
    decreases |m|
  {
    if m != [] {
      FirstMatchByLower(m[1..], a, b);
    }
  }

  /** Case does not matter on the caller's side either. */
  lemma ResolveIgnoresCase(m: GenreMap, name: string)
    ensures FindIdByName(m, Lower(name)) == FindIdByName(m, name)
  {
    LowerIdempotent(name);
    FirstMatchByLower(m, Lower(name), name);
  }

  /** A first entry that matches is the one the scan returns. */
  lemma FirstEntryMatches(m: GenreMap, name: string)
    requires m != [] && SameName(m[0].1, name)
    ensures FindIdByName(m, name) == Some(m[0].0)
  {
  }

  lemma LowerActionTitle()
    ensures Lower("Action") == "action"
  {
  }

  /** The first default entry, "Action", matches `name` ignoring case. */
  lemma MatchesAction(name: string)
    requires Lower(name) == "action"
    ensures FindIdByName(DefaultGenres, name) == Some(28)
  {
    var m := DefaultGenres;
    assert m[0] == (28, "Action");
    LowerActionTitle();
    FirstEntryMatches(m, name);
  }

  lemma ResolvesToAction(name: string)
    requires Lower(name) == "action"
    ensures ResolveNames(DefaultGenres, [name]) == [28]
  {
    MatchesAction(name);
    ResolveSingle(DefaultGenres, name);
  }

  lemma LowerAction()
    ensures Lower("action") == "action" && Lower("ACTION") == "action"
  {
  }

  /** After a failed fetch into an empty map, "action" and "ACTION" both
      resolve to id 28. */
  lemma ResolveAgainstDefaults()
    ensures ResolveNames(LoadGenres([], None), ["action"]) == [28]
    ensures ResolveNames(LoadGenres([], None), ["ACTION"]) == [28]
  {
    FallbackFromEmpty();
    LowerAction();
    ResolvesToAction("action");
    ResolvesToAction("ACTION");
  }

  /** What one id contributes: its name when known and non-empty. */
  function NameOf(m: GenreMap, id: int): (names: seq<string>)
    ensures |names| <= 1
    ensures names != [] <==> Get(m, id).Some? && Get(m, id).value != ""
    ensures names != [] ==> names[0] == Get(m, id).value
  {
    match Get(m, id)
    case Some(name) => if name != "" then [name] else []
    case None => []
  }

  /** `genre_ids.map(id => map.get(id)).filter(Boolean)`: unknown ids and
      empty names are dropped, order is kept, duplicates are not removed. */
  function NamesOf(m: GenreMap, ids: seq<int>): (names: seq<string>)
    ensures |names| <= |ids|
    decreases |ids|
  {
    if ids == [] then [] else NameOf(m, ids[0]) + NamesOf(m, ids[1..])
  }

  /** One id shows its name when the map binds it to a non-empty name,
      and nothing when it is unknown or bound to the empty string. */
  lemma NamesOfSingle(m: GenreMap, id: int)
    ensures NamesOf(m, [id]) == if Get(m, id).Some? && Get(m, id).value != "" then [Get(m, id).value] else []
  {
    assert [id][1..] == [];
  }

  /** Every name shown is a non-empty name the map holds. */
  lemma {:induction false} NamesOfKnown(m: GenreMap, ids: seq<int>)
    ensures forall i :: 0 <= i < |NamesOf(m, ids)| ==> NamesOf(m, ids)[i] != "" && NamesOf(m, ids)[i] in Names(m)
    decreases |ids|
  {
    if ids != [] {
      var head := NameOf(m, ids[0]);
      var tail := NamesOf(m, ids[1..]);
      NamesOfKnown(m, ids[1..]);
      if head != [] {
        var i :| 0 <= i < |m| && m[i] == (ids[0], head[0]);
        assert Names(m)[i] == head[0];
      }
      assert NamesOf(m, ids) == head + tail;
      forall i | 0 <= i < |head + tail| ensures (head + tail)[i] != "" && (head + tail)[i] in Names(m) {
        if i >= |head| {
          assert (head + tail)[i] == tail[i - |head|];
        }
      }
    }
  }

  /** The lookup works id by id: mapping a concatenation maps each part,
      in order. */
  lemma {:induction false} NamesOfAppend(m: GenreMap, a: seq<int>, b: seq<int>)
    ensures NamesOf(m, a + b) == NamesOf(m, a) + NamesOf(m, b)
    decreases |a|
  {
    if a == [] {
      assert a + b == b;
    } else {
      assert (a + b)[1..] == a[1..] + b;
      NamesOfAppend(m, a[1..], b);
    }
  }

  /** When every id is known under a non-empty name, nothing is dropped
      and the names line up with the ids. */
  lemma {:induction false} NamesOfAllKnown(m: GenreMap, ids: seq<int>)
    requires forall i :: 0 <= i < |ids| ==> Get(m, ids[i]).Some? && Get(m, ids[i]).value != ""
    ensures |NamesOf(m, ids)| == |ids|
    ensures forall i :: 0 <= i < |ids| ==> NamesOf(m, ids)[i] == Get(m, ids[i]).value
    decreases |ids|
  {
    if ids != [] {
      var tail := ids[1..];
      assert forall i :: 0 <= i < |tail| ==> tail[i] == ids[i + 1];
      NamesOfAllKnown(m, tail);
      var r := NamesOf(m, ids);
      assert r == [Get(m, ids[0]).value] + NamesOf(m, tail);
      forall i | 0 <= i < |ids| ensures r[i] == Get(m, ids[i]).value {
        if i > 0 {
          assert r[i] == NamesOf(m, tail)[i - 1];
        }
      }
    }
  }

  /** `getGenres()`: every name in the map, ascending, duplicates kept. */
  function AllNames(m: GenreMap): (names: seq<string>)
    ensures SortedStrings(names)
    ensures multiset(names) == multiset(Names(m))
  {
    SortStrings(Names(m))
  }
}

=== FILE: normalizer.dfy ===
/** How one catalogue record, and for the detail view its runtime and
    credits, becomes the application's `Movie` (`convertTMDBMovie` and
    `getMPAARating` in src/services/tmdbService.tsx). */
module Normalizer {
  import opened Wrappers
  import opened Text
  import opened GenreCatalog

  datatype CastMember = CastMember(name: string, order: int)
  datatype CrewMember = CrewMember(name: string, job: string)
  datatype Credits = Credits(cast: seq<CastMember>, crew: seq<CrewMember>)

  /** A catalogue record as the list and detail endpoints return it.
      `voteAverage` is held in thousandths (7.345 is 7345); `releaseYear`
      is the year the platform's date parser reads from `releaseDate`. */
  datatype Record = Record(
    id: int,
    title: string,
    overview: string,
    posterPath: Option<string>,
    backdropPath: Option<string>,
    releaseDate: string,
    releaseYear: int,
    voteAverage: int,
    genreIds: Option<seq<int>>,
    adult: bool)

  /** The detail-only part of a record: runtime in minutes and credits. */
  datatype Details = Details(runtime: Option<int>, credits: Option<Credits>)

  /** The application's movie. `imdbScore` is held in tenths (7.3 is 73). */
  datatype Movie = Movie(
    id: string,
    title: string,
    synopsis: string,
    director: Option<string>,
    writer: Option<string>,
    starring: Option<seq<string>>,
    rating: Option<string>,
    year: Option<int>,
    duration: Option<string>,
    imdbScore: int,
    genres: seq<string>,
    posterUrl: Option<string>,
    backdropUrl: Option<string>)

  // ---------------------------------------------------------------------
  // Crew
  // ---------------------------------------------------------------------

  const DirectorJobs: set<string> := {"Director"}

  /** Any of the three jobs counts as writing credit; none takes precedence. */
  const WriterJobs: set<string> := {"Screenplay", "Writer", "Story"}

  /** `crew.find(...)`: the position of the first member with one of `jobs`. */
  function FirstWithJob(crew: seq<CrewMember>, jobs: set<string>): (r: Option<nat>)
    ensures r.Some? ==> r.value < |crew| && crew[r.value].job in jobs
    ensures r.Some? ==> forall i :: 0 <= i < r.value ==> crew[i].job !in jobs
    ensures r.None? ==> forall i :: 0 <= i < |crew| ==> crew[i].job !in jobs
    decreases |crew|
  {
    if crew == [] then None
    else if crew[0].job in jobs then Some(0)
    else match FirstWithJob(crew[1..], jobs)
      case None => None
      case Some(k) => Some(k + 1)
  }

  /** The name of the first member with one of `jobs`; absent exactly
      when no member holds one. */
  function CrewName(crew: seq<CrewMember>, jobs: set<string>): (r: Option<string>)
    ensures r.None? <==> forall i :: 0 <= i < |crew| ==> crew[i].job !in jobs
    ensures r.Some? ==> exists i :: 0 <= i < |crew| && crew[i].job in jobs && crew[i].name == r.value
                          && forall j :: 0 <= j < i ==> crew[j].job !in jobs
  {
    match FirstWithJob(crew, jobs)
    case None => None
    case Some(k) => Some(crew[k].name)
  }

  /** Writing credit goes to whichever qualifying member is listed first:
      a story credit ahead of a screenplay credit wins. */
  lemma WriterIsFirstListed()
    ensures CrewName([CrewMember("A", "Story"), CrewMember("B", "Screenplay")], WriterJobs) == Some("A")
    ensures CrewName([CrewMember("B", "Screenplay"), CrewMember("A", "Story")], WriterJobs) == Some("B")
  {
    var crew := [CrewMember("A", "Story"), CrewMember("B", "Screenplay")];
    assert crew[0].job in WriterJobs;
  }

  // ---------------------------------------------------------------------
  // Cast: a stable sort by billing order, then the first three
  // ---------------------------------------------------------------------

  predicate ByOrder(s: seq<CastMember>) {
    forall i, j :: 0 <= i < j < |s| ==> s[i].order <= s[j].order
  }

  /** The members of `s` billed at `k`, in their order in `s`. */
  function WithOrder(s: seq<CastMember>, k: int): seq<CastMember>
    decreases |s|
  {
    if s == [] then []
    else (if s[0].order == k then [s[0]] else []) + WithOrder(s[1..], k)
  }

  /** Inserts `x` before the first member billed at or after it. */
  function Insert(x: CastMember, s: seq<CastMember>): seq<CastMember>
    decreases |s|
  {
    if s == [] || x.order <= s[0].order then [x] + s
    else [s[0]] + Insert(x, s[1..])
  }

  /** Insertion adds exactly the one member. */
  lemma {:induction false} InsertPerm(x: CastMember, s: seq<CastMember>)
    ensures multiset(Insert(x, s)) == multiset(s) + multiset{x}
    decreases |s|
  {
    if s != [] && x.order > s[0].order {
      InsertPerm(x, s[1..]);
      assert s == [s[0]] + s[1..];
    }
  }

  predicate AllFrom(s: seq<CastMember>, b: int) {
    forall i :: 0 <= i < |s| ==> b <= s[i].order
  }

  lemma {:induction false} InsertFrom(x: CastMember, s: seq<CastMember>, b: int)
    requires AllFrom(s, b) && b <= x.order
    ensures AllFrom(Insert(x, s), b)
    decreases |s|
  {
    if s != [] && x.order > s[0].order {
      InsertFrom(x, s[1..], b);
      var r := Insert(x, s);
      assert r == [s[0]] + Insert(x, s[1..]);
    }
  }

  lemma {:induction false} InsertByOrder(x: CastMember, s: seq<CastMember>)
    requires ByOrder(s)
    ensures ByOrder(Insert(x, s))
    decreases |s|
  {
    if s != [] && x.order > s[0].order {
      var t := s[1..];
      InsertByOrder(x, t);
      InsertFrom(x, t, s[0].order);
      var u := Insert(x, t);
      var r := [s[0]] + u;
      forall i, j | 0 <= i < j < |r| ensures r[i].order <= r[j].order {
        assert r[j] == u[j - 1];
        if i > 0 {
          assert r[i] == u[i - 1];
        }
      }
    }
  }

  /** One step of `WithOrder` on a sequence built by prepending. */
  lemma WithOrderCons(y: CastMember, t: seq<CastMember>, k: int)
    ensures WithOrder([y] + t, k) == (if y.order == k then [y] else []) + WithOrder(t, k)
  {
    assert ([y] + t)[0] == y && ([y] + t)[1..] == t;
  }

  lemma {:induction false} InsertStable(x: CastMember, s: seq<CastMember>, k: int)
    ensures WithOrder(Insert(x, s), k) == (if x.order == k then [x] else []) + WithOrder(s, k)
    decreases |s|
  {
    if s == [] || x.order <= s[0].order {
      WithOrderCons(x, s, k);
    } else {
      var t := Insert(x, s[1..]);
      InsertStable(x, s[1..], k);
      WithOrderCons(s[0], t, k);
      WithOrderCons(s[0], s[1..], k);
      assert s == [s[0]] + s[1..];
      if x.order == k {
        assert s[0].order != k;
      } else {
        assert WithOrder(t, k) == WithOrder(s[1..], k);
      }
    }
  }

  /** `cast.sort((a, b) => a.order - b.order)`: a stable sort by billing
      order. */
  function SortByOrder(s: seq<CastMember>): (r: seq<CastMember>)
    ensures ByOrder(r)
    ensures multiset(r) == multiset(s)
    decreases |s|
  {
    if s == [] then []
    else
      var rest := SortByOrder(s[1..]);
      InsertSorted(s, rest);
      Insert(s[0], rest)
  }

  /** One step of the insertion sort: placing the head into the sorted
      tail gives a sorted permutation of the whole. */
  lemma InsertSorted(s: seq<CastMember>, rest: seq<CastMember>)
    requires s != [] && ByOrder(rest) && multiset(rest) == multiset(s[1..])
    ensures ByOrder(Insert(s[0], rest))
    ensures multiset(Insert(s[0], rest)) == multiset(s)
  {
    InsertByOrder(s[0], rest);
    InsertPerm(s[0], rest);
    assert s == [s[0]] + s[1..];
  }

  /** The sort is stable: members billed alike keep their relative order. */
  lemma {:induction false} SortByOrderStable(s: seq<CastMember>, k: int)
    ensures WithOrder(SortByOrder(s), k) == WithOrder(s, k)
    decreases |s|
  {
    if s != [] {
      SortByOrderStable(s[1..], k);
      InsertStable(s[0], SortByOrder(s[1..]), k);
    }
  }

  const StarringCount: nat := 3

  /** The first three members after sorting (fewer when the cast is
      smaller): a sub-multiset of the cast, in billing order. */
  function TopBilled(cast: seq<CastMember>): (r: seq<CastMember>)
    ensures |r| == if |cast| < StarringCount then |cast| else StarringCount
    ensures ByOrder(r)
    ensures multiset(r) <= multiset(cast)
  {
    var s := SortByOrder(cast);
    var n := if |s| < StarringCount then |s| else StarringCount;
    assert s == s[..n] + s[n..];
    assert |multiset(s)| == |multiset(cast)|;
    s[..n]
  }

  /** Whoever is billed strictly ahead of a chosen member is chosen too. */
  lemma TopBilledAreFirst(cast: seq<CastMember>, x: CastMember, y: CastMember)
    requires x in TopBilled(cast) && y in cast
    requires y.order < x.order
    ensures y in TopBilled(cast)
  {
    var s := SortByOrder(cast);
    var n := |TopBilled(cast)|;
    assert y in multiset(s);
    var i :| 0 <= i < n && s[i] == x;
    var j :| 0 <= j < |s| && s[j] == y;
    assert j < n;
    assert s[..n][j] == y;
  }

  function CastNames(s: seq<CastMember>): (names: seq<string>)
    ensures |names| == |s|
    ensures forall i :: 0 <= i < |s| ==> names[i] == s[i].name
  {
    seq(|s|, i requires 0 <= i < |s| => s[i].name)
  }

  /** `starring`: the top-billed names when credits are present and the
      cast is not empty; absent otherwise. */
  function Starring(credits: Option<Credits>): (r: Option<seq<string>>)
    ensures r.Some? <==> credits.Some? && |credits.value.cast| > 0
    ensures r.Some? ==> 1 <= |r.value| <= StarringCount
    ensures r.Some? ==> |r.value| == |TopBilled(credits.value.cast)|
    ensures r.Some? ==> forall i :: 0 <= i < |r.value| ==> r.value[i] == TopBilled(credits.value.cast)[i].name
  {
    if credits.None? then None
    else
      var names := CastNames(TopBilled(credits.value.cast));
      if |names| > 0 then Some(names) else None
  }

  /** Anyone billed strictly ahead of a starring member is starring too. */
  lemma StarringIsTopBilled(credits: Credits, i: int, y: CastMember)
    requires 0 <= i < |TopBilled(credits.cast)|
    requires y in credits.cast && y.order < TopBilled(credits.cast)[i].order
    ensures Starring(Some(credits)).Some?
    ensures y.name in Starring(Some(credits)).value
  {
    var top := TopBilled(credits.cast);
    TopBilledAreFirst(credits.cast, top[i], y);
    var k :| 0 <= k < |top| && top[k] == y;
    assert Starring(Some(credits)).value[k] == y.name;
  }

  // ---------------------------------------------------------------------
  // Duration, score, rating, images, synopsis
  // ---------------------------------------------------------------------

  /** JavaScript's `%`: the remainder takes the sign of the dividend. */
  function JsRem(a: int, b: int): (r: int)
    requires b > 0
    ensures 0 <= a ==> r == a % b
    ensures a < 0 ==> -b < r <= 0
    ensures (a - r) % b == 0
  {
    if a >= 0 then
      MultipleMod(a / b, b);
      assert a - a % b == b * (a / b);
      a % b
    else
      var n := -a;
      MultipleMod(-(n / b), b);
      assert a - (-(n % b)) == b * (-(n / b));
      -(n % b)
  }

  /** A multiple of `b` leaves no remainder. */
  lemma MultipleMod(k: int, b: int)
    requires b > 0
    ensures (b * k) % b == 0
  {
    var d := k - (b * k) / b;
    assert b * d == (b * k) % b;
  }

  /** `${Math.floor(t / 60)}h ${t % 60}m`. */
  function HoursMinutes(t: int): string {
    IntToString(t / 60) + "h " + IntToString(JsRem(t, 60)) + "m"
  }

  /** The duration shown: absent when the runtime is missing or zero. */
  function Duration(runtime: Option<int>): (r: Option<string>)
    ensures r.Some? <==> runtime.Some? && runtime.value != 0
    ensures r.Some? ==> 'h' in r.value && r.value[|r.value| - 1] == 'm'
    ensures r.Some? ==> ParseDuration(r.value) == Some((runtime.value / 60, JsRem(runtime.value, 60)))
  {
    if runtime.Some? && runtime.value != 0 then
      var t := runtime.value;
      var s := HoursMinutes(t);
      assert s[|IntToString(t / 60)|] == 'h';
      DurationRoundTrip(t);
      Some(s)
    else None
  }

  /** Reads a rendered duration back as its two numbers: hours before the
      `h`, minutes between `h ` and the final `m`. */
  function ParseDuration(s: string): Option<(int, int)> {
    match IndexOf(s, 'h')
    case None => None
    case Some(k) =>
      if k + 2 <= |s| - 1 && s[k + 1] == ' ' && s[|s| - 1] == 'm' then
        match (ParseInt(s[..k]), ParseInt(s[k + 2..|s| - 1]))
        case (Some(h), Some(mins)) => Some((h, mins))
        case _ => None
      else None
  }

  /** A rendered runtime reads back as its floored hours and its
      JavaScript remainder; for a non-negative runtime those are the
      hours and the minutes below an hour, which add up to it again. */
  lemma DurationRoundTrip(t: int)
    ensures ParseDuration(HoursMinutes(t)) == Some((t / 60, JsRem(t, 60)))
    ensures t >= 0 ==> 0 <= JsRem(t, 60) < 60 && (t / 60) * 60 + JsRem(t, 60) == t
  {
    ReadHoursMinutes(t / 60, JsRem(t, 60));
  }

  /** Any two numbers written as `<h>h <m>m` read back as themselves. */
  lemma ReadHoursMinutes(h: int, m: int)
    ensures ParseDuration(IntToString(h) + "h " + IntToString(m) + "m") == Some((h, m))
  {
    var hs := IntToString(h);
    var ms := IntToString(m);
    var s := hs + "h " + ms + "m";
    NotInNumber(h, 'h');
    IndexOfAfterPrefix(hs, 'h', " " + ms + "m");
    assert s == hs + ['h'] + (" " + ms + "m");
    assert s[..|hs|] == hs;
    assert s[|hs| + 2..|s| - 1] == ms;
    IntToStringRoundTrip(h);
    IntToStringRoundTrip(m);
  }

  /** 125 minutes show as `2h 5m`. A negative runtime renders with the
      hours floored and the minutes keeping the runtime's sign, so that it
      no longer reads as hours plus minutes: -5 minutes show as `-1h -5m`. */
  lemma DurationExamples()
    ensures HoursMinutes(125) == "2h 5m"
    ensures HoursMinutes(-5) == "-1h -5m"
    ensures Duration(Some(125)) == Some("2h 5m")
    ensures Duration(Some(-5)) == Some("-1h -5m")
    ensures Duration(Some(0)) == None
  {
    assert NatToString(2) == "2" && NatToString(5) == "5" && NatToString(1) == "1";
    assert IntToString(-1) == "-1";
    assert IntToString(-5) == "-5";
  }

  /** A negative whole number of hours shows zero minutes: JavaScript's
      `-60 % 60` is `-0`, which renders as `0`. */
  lemma WholeNegativeHourExample()
    ensures Duration(Some(-60)) == Some("-1h 0m")
  {
    assert JsRem(-60, 60) == 0 && -60 / 60 == -1;
    assert NatToString(1) == "1" && IntToString(-1) == "-1";
    assert NatToString(0) == "0" && IntToString(0) == "0";
    assert HoursMinutes(-60) == "-1" + "h " + "0" + "m" == "-1h 0m";
  }

  /** `Math.round(v * 10) / 10` on a vote average held in thousandths, as
      tenths: the nearest tenth, halves rounding up. */
  function Score(thousandths: int): (tenths: int)
    ensures 100 * tenths - 50 <= thousandths < 100 * tenths + 50
  {
    (thousandths + 50) / 100
  }

  /** `getMPAARating`: `R` for adult titles, nothing otherwise. */
  function Rating(rec: Record): (r: Option<string>)
    ensures r.Some? <==> rec.adult
    ensures r.Some? ==> r.value == "R"
  {
    if rec.adult then Some("R") else None
  }

  const ImageBase: string := "https://image.tmdb.org/t/p"
  const PosterSize: string := "/w500"
  const BackdropSize: string := "/w1280"

  /** An image URL, when the path is present and non-empty: the image
      base, the size segment, and the path unchanged. */
  function ImageUrl(size: string, path: Option<string>): (r: Option<string>)
    ensures r.Some? <==> path.Some? && path.value != ""
    ensures r.Some? ==> |r.value| == |ImageBase| + |size| + |path.value|
    ensures r.Some? ==> r.value[..|ImageBase| + |size|] == ImageBase + size
    ensures r.Some? ==> r.value[|ImageBase| + |size|..] == path.value
  {
    if path.Some? && path.value != "" then
      var u := ImageBase + size + path.value;
      assert u[..|ImageBase| + |size|] == ImageBase + size;
      Some(u)
    else None
  }

  const NoSynopsis: string := "No synopsis available."

  /** `overview || 'No synopsis available.'`. */
  function Synopsis(overview: string): (r: string)
    ensures r != ""
    ensures overview != "" ==> r == overview
    ensures overview == "" ==> r == NoSynopsis
  {
    if overview == "" then NoSynopsis else overview
  }

  // ---------------------------------------------------------------------
  // The conversion
  // ---------------------------------------------------------------------

  /** `convertTMDBMovie(record, details)` against the genre map `m`. */
  function Convert(m: GenreMap, rec: Record, details: Option<Details>): (r: Movie)
    ensures ParseInt(r.id) == Some(rec.id)
    ensures r.title == rec.title
    ensures r.synopsis != "" && (rec.overview != "" ==> r.synopsis == rec.overview)
    ensures rec.overview == "" ==> r.synopsis == NoSynopsis
    ensures r.year.Some? <==> rec.releaseDate != ""
    ensures r.year.Some? ==> r.year.value == rec.releaseYear
    ensures 100 * r.imdbScore - 50 <= rec.voteAverage < 100 * r.imdbScore + 50
    ensures r.rating.Some? <==> rec.adult
    ensures r.rating == Rating(rec)
    ensures r.genres == NamesOf(m, rec.genreIds.GetOr([]))
    ensures |r.genres| <= |rec.genreIds.GetOr([])|
    ensures forall i :: 0 <= i < |r.genres| ==> r.genres[i] != "" && r.genres[i] in Names(m)
    ensures r.duration.Some? <==> details.Some? && details.value.runtime.Some? && details.value.runtime.value != 0
    ensures details.None? || details.value.credits.None? ==>
              r.director.None? && r.writer.None? && r.starring.None?
    ensures r.starring.Some? ==> 1 <= |r.starring.value| <= StarringCount
    ensures r.posterUrl.Some? <==> rec.posterPath.Some? && rec.posterPath.value != ""
    ensures r.backdropUrl.Some? <==> rec.backdropPath.Some? && rec.backdropPath.value != ""
    ensures r.posterUrl == ImageUrl(PosterSize, rec.posterPath)
    ensures r.backdropUrl == ImageUrl(BackdropSize, rec.backdropPath)
    ensures r.duration == Duration(if details.Some? then details.value.runtime else None)
  {
    IntToStringRoundTrip(rec.id);
    NamesOfKnown(m, rec.genreIds.GetOr([]));
    var credits := if details.Some? then details.value.credits else None;
    Movie(
      IntToString(rec.id),
      rec.title,
      Synopsis(rec.overview),
      if credits.Some? then CrewName(credits.value.crew, DirectorJobs) else None,
      if credits.Some? then CrewName(credits.value.crew, WriterJobs) else None,
      Starring(credits),
      Rating(rec),
      if rec.releaseDate != "" then Some(rec.releaseYear) else None,
      Duration(if details.Some? then details.value.runtime else None),
      Score(rec.voteAverage),
      NamesOf(m, rec.genreIds.GetOr([])),
      ImageUrl(PosterSize, rec.posterPath),
      ImageUrl(BackdropSize, rec.backdropPath))
  }

  /** With credits, the director and the writer are the first crew members
      holding those jobs. */
  lemma ConvertCredits(m: GenreMap, rec: Record, d: Details)
    requires d.credits.Some?
    ensures Convert(m, rec, Some(d)).director == CrewName(d.credits.value.crew, DirectorJobs)
    ensures Convert(m, rec, Some(d)).writer == CrewName(d.credits.value.crew, WriterJobs)
    ensures Convert(m, rec, Some(d)).starring == Starring(d.credits)
  {
  }

  /** Every genre id the map names is shown, in the record's order. */
  lemma ConvertKnownGenres(m: GenreMap, rec: Record, ids: seq<int>)
    requires rec.genreIds == Some(ids)
    requires forall i :: 0 <= i < |ids| ==> Get(m, ids[i]).Some? && Get(m, ids[i]).value != ""
    ensures |Convert(m, rec, None).genres| == |ids|
    ensures forall i :: 0 <= i < |ids| ==> Convert(m, rec, None).genres[i] == Get(m, ids[i]).value
  {
    NamesOfAllKnown(m, ids);
  }
}

=== FILE: pagination.dfy ===
/** The movie-list hook (`useMovies` in src/hooks/useMovies.ts) as a state
    machine. Each action is split into the moment it starts (the state it
    shows while waiting and the request it sends) and the moment its
    request completes (the state it shows afterwards). Actions run one at
    a time; requests that overlap are not modelled. */
module Pagination {
  import opened Wrappers
  import opened Text
  import opened Query
  import opened Normalizer

  /** The catalogue serves this many results per page; a shorter page is
      taken to be the last. */
  const PageSize: nat := 20

  /** The query a later "load more" continues. The hook keeps the last
      criteria and the last search text in two variables and never sets
      both; this type says so. */
  datatype LastQuery = Neither | Discovered(criteria: Criteria) | Searched(query: string)

  datatype State = State(
    movies: seq<Movie>,
    loading: bool,
    error: Option<string>,
    hasMore: bool,
    currentPage: int,
    last: LastQuery)

  /** The state on mount and after `reset`. */
  const Initial: State := State([], false, None, true, 1, Neither)

  /** The request an action sends to the client, if any. */
  datatype Fetch = FetchDiscover(criteria: Criteria) | FetchSearch(query: string, page: int) | NoFetch

  /** How a request ended: the movies, or a thrown value, with its
      message when it was an `Error` (possibly empty) and none otherwise. */
  datatype Outcome = Loaded(movies: seq<Movie>) | Failed(message: Option<string>)

  const LoadFailed: string := "Failed to load movies"
  const SearchFailed: string := "Failed to search movies"
  const LoadMoreFailed: string := "Failed to load more movies"

  /** `movies.length === 20`. */
  predicate FullPage(ms: seq<Movie>) {
    |ms| == PageSize
  }

  // ---------------------------------------------------------------------
  // discoverMovies
  // ---------------------------------------------------------------------

  /** Starting a discovery clears the error, shows loading, and asks for
      the first page of `c`. */
  function DiscoverStart(st: State, c: Criteria): (r: (State, Fetch))
    ensures r.0.loading && r.0.error.None?
    ensures r.0 == st.(loading := true, error := None)
    ensures r.1.FetchDiscover? && r.1.criteria.page == Some(1)
    ensures r.1.criteria.(page := c.page) == c
  {
    (st.(loading := true, error := None), FetchDiscover(c.(page := Some(1))))
  }

  /** A discovery's completion: its results replace the list on page 1
      and become what "load more" continues; a failure keeps the list,
      the page and the previous query, and shows the error. */
  function DiscoverDone(st: State, c: Criteria, o: Outcome): (r: State)
    ensures !r.loading
    ensures o.Loaded? ==> r.movies == o.movies && r.error.None? && r.currentPage == 1
                          && r.last == Discovered(c) && (r.hasMore <==> |o.movies| == PageSize)
    ensures o.Failed? ==> r.movies == st.movies && r.currentPage == st.currentPage && r.last == st.last
                          && r.hasMore == st.hasMore && r.error == Some(o.message.GetOr(LoadFailed))
  {
    match o
    case Loaded(ms) => State(ms, false, None, FullPage(ms), 1, Discovered(c))
    case Failed(msg) => st.(loading := false, error := Some(msg.GetOr(LoadFailed)))
  }

  // ---------------------------------------------------------------------
  // searchMovies
  // ---------------------------------------------------------------------

  /** Starting a search: text that trims to nothing is a reset and sends
      nothing; otherwise the error clears and the first page of results
      is asked for, with the text as typed. */
  function SearchStart(st: State, q: string): (r: (State, Fetch))
    ensures IsBlank(q) ==> r == (Initial, NoFetch)
    ensures !IsBlank(q) ==> r.0 == st.(loading := true, error := None) && r.1 == FetchSearch(q, 1)
  {
    TrimEmptyIffBlank(q);
    if Trim(q) == "" then (Initial, NoFetch)
    else (st.(loading := true, error := None), FetchSearch(q, 1))
  }

  function SearchDone(st: State, q: string, o: Outcome): (r: State)
    ensures !r.loading
    ensures o.Loaded? ==> r.movies == o.movies && r.error.None? && r.currentPage == 1
                          && r.last == Searched(q) && (r.hasMore <==> |o.movies| == PageSize)
    ensures o.Failed? ==> r.movies == st.movies && r.currentPage == st.currentPage && r.last == st.last
                          && r.hasMore == st.hasMore && r.error == Some(o.message.GetOr(SearchFailed))
  {
    match o
    case Loaded(ms) => State(ms, false, None, FullPage(ms), 1, Searched(q))
    case Failed(msg) => st.(loading := false, error := Some(msg.GetOr(SearchFailed)))
  }

  // ---------------------------------------------------------------------
  // loadMore
  // ---------------------------------------------------------------------

  /** The request "load more" sends for the next page: the last search
      when there is one, else the last criteria, else empty criteria. */
  function NextFetch(last: LastQuery, next: int): (f: Fetch)
    ensures f != NoFetch
    ensures last.Searched? ==> f == FetchSearch(last.query, next)
    ensures last.Discovered? ==> f.FetchDiscover? && f.criteria.page == Some(next)
                                 && f.criteria.(page := last.criteria.page) == last.criteria
    ensures last.Neither? ==> f == FetchDiscover(NoCriteria.(page := Some(next)))
  {
    match last
    case Searched(q) => FetchSearch(q, next)
    case Discovered(c) => FetchDiscover(c.(page := Some(next)))
    case Neither => FetchDiscover(NoCriteria.(page := Some(next)))
  }

  /** Whether "load more" does nothing: while loading, or after a short page. */
  predicate LoadMoreIgnored(st: State) {
    st.loading || !st.hasMore
  }

  /** Starting "load more": ignored when guarded; otherwise shows loading,
      keeps the error, and asks for the page after the current one. */
  function LoadMoreStart(st: State): (r: (State, Fetch))
    ensures LoadMoreIgnored(st) ==> r == (st, NoFetch)
    ensures !LoadMoreIgnored(st) ==> r.0 == st.(loading := true) && r.1 == NextFetch(st.last, st.currentPage + 1)
  {
    if LoadMoreIgnored(st) then (st, NoFetch)
    else (st.(loading := true), NextFetch(st.last, st.currentPage + 1))
  }

  /** A "load more" completion: the page is appended and becomes current;
      the error is left as it was, on success as on failure it is only
      ever replaced. */
  function LoadMoreDone(st: State, next: int, o: Outcome): (r: State)
    ensures !r.loading && r.last == st.last
    ensures o.Loaded? ==> r.movies == st.movies + o.movies && r.currentPage == next
                          && r.error == st.error && (r.hasMore <==> |o.movies| == PageSize)
    ensures o.Failed? ==> r.movies == st.movies && r.currentPage == st.currentPage
                          && r.hasMore == st.hasMore && r.error == Some(o.message.GetOr(LoadMoreFailed))
  {
    match o
    case Loaded(ms) => st.(movies := st.movies + ms, loading := false, hasMore := FullPage(ms), currentPage := next)
    case Failed(msg) => st.(loading := false, error := Some(msg.GetOr(LoadMoreFailed)))
  }

  // ---------------------------------------------------------------------
  // Whole actions
  // ---------------------------------------------------------------------

  /** A user action together with how its request ends (ignored when the
      action sends none). */
  datatype Action =
    | DiscoverMovies(criteria: Criteria, outcome: Outcome)
    | SearchMovies(query: string, outcome: Outcome)
    | LoadMore(outcome: Outcome)
    | Reset

  /** One action from start to completion. */
  function Step(st: State, a: Action): State {
    match a
    case DiscoverMovies(c, o) => DiscoverDone(DiscoverStart(st, c).0, c, o)
    case SearchMovies(q, o) =>
      var (waiting, fetch) := SearchStart(st, q);
      if fetch == NoFetch then waiting else SearchDone(waiting, q, o)
    case LoadMore(o) =>
      var (waiting, fetch) := LoadMoreStart(st);
      if fetch == NoFetch then waiting else LoadMoreDone(waiting, st.currentPage + 1, o)
    case Reset => Initial
  }

  /** The request an action sends when it starts. */
  function Sends(st: State, a: Action): Fetch {
    match a
    case DiscoverMovies(c, _) => DiscoverStart(st, c).1
    case SearchMovies(q, _) => SearchStart(st, q).1
    case LoadMore(_) => LoadMoreStart(st).1
    case Reset => NoFetch
  }

  function Run(st: State, actions: seq<Action>): State
    decreases |actions|
  {
    if actions == [] then st else Run(Step(st, actions[0]), actions[1..])
  }

  /** What holds between actions: nothing is loading, the page is at
      least 1, and a remembered search text is never blank. */
  predicate Valid(st: State) {
    !st.loading && st.currentPage >= 1 && (st.last.Searched? ==> !IsBlank(st.last.query))
  }

  lemma InitialValid()
    ensures Valid(Initial)
  {
  }

  lemma DiscoverValid(st: State, c: Criteria, o: Outcome)
    requires Valid(st)
    ensures Valid(Step(st, DiscoverMovies(c, o)))
  {
  }

  lemma SearchValid(st: State, q: string, o: Outcome)
    requires Valid(st)
    ensures Valid(Step(st, SearchMovies(q, o)))
  {
  }

  lemma LoadMoreValid(st: State, o: Outcome)
    requires Valid(st)
    ensures Valid(Step(st, LoadMore(o)))
  {
  }

  lemma StepValid(st: State, a: Action)
    requires Valid(st)
    ensures Valid(Step(st, a))
  {
    match a
    case DiscoverMovies(c, o) => DiscoverValid(st, c, o);
    case SearchMovies(q, o) => SearchValid(st, q, o);
    case LoadMore(o) => LoadMoreValid(st, o);
    case Reset =>
  }

  lemma {:induction false} RunValid(st: State, actions: seq<Action>)
    requires Valid(st)
    ensures Valid(Run(st, actions))
    decreases |actions|
  {
    if actions != [] {
      StepValid(st, actions[0]);
      RunValid(Step(st, actions[0]), actions[1..]);
    }
  }

  /** A blank search is exactly a reset, whatever came before, and sends
      no request. */
  lemma BlankSearchResets(st: State, q: string, o: Outcome)
    requires IsBlank(q)
    ensures Step(st, SearchMovies(q, o)) == Step(st, Reset)
    ensures Sends(st, SearchMovies(q, o)) == NoFetch
  {
  }

  /** Every request "load more" sends asks for the page after the current
      one, and it sends one exactly when it is not guarded. */
  lemma LoadMoreRequestsNextPage(st: State, o: Outcome)
    ensures Sends(st, LoadMore(o)) != NoFetch <==> !st.loading && st.hasMore
    ensures Sends(st, LoadMore(o)).FetchDiscover? ==> Sends(st, LoadMore(o)).criteria.page == Some(st.currentPage + 1)
    ensures Sends(st, LoadMore(o)).FetchSearch? ==> Sends(st, LoadMore(o)).page == st.currentPage + 1
  {
  }

  /** A loaded page only ever extends the list: what was shown stays, in
      place, and the page count goes up by one. */
  lemma LoadMoreExtends(st: State, ms: seq<Movie>)
    requires Valid(st) && st.hasMore
    ensures Step(st, LoadMore(Loaded(ms))).movies[..|st.movies|] == st.movies
    ensures Step(st, LoadMore(Loaded(ms))).currentPage == st.currentPage + 1
  {
    var r := Step(st, LoadMore(Loaded(ms)));
    assert r.movies == st.movies + ms;
  }

  /** A failed discovery leaves the previous query in place, so the next
      "load more" continues the earlier search. */
  lemma FailedDiscoverKeepsSearch(q: string, ms: seq<Movie>, c: Criteria, msg: Option<string>)
    requires !IsBlank(q) && FullPage(ms)
    ensures var st := Run(Initial, [SearchMovies(q, Loaded(ms)), DiscoverMovies(c, Failed(msg))]);
            st.error.Some? && Sends(st, LoadMore(Loaded([]))) == FetchSearch(q, 2)
  {
    var s1 := Step(Initial, SearchMovies(q, Loaded(ms)));
    var s2 := Step(s1, DiscoverMovies(c, Failed(msg)));
    assert Run(Initial, [SearchMovies(q, Loaded(ms)), DiscoverMovies(c, Failed(msg))]) == Run(s1, [DiscoverMovies(c, Failed(msg))]);
    assert Run(s1, [DiscoverMovies(c, Failed(msg))]) == Run(s2, []);
  }

  /** A failed first discovery followed by a successful "load more" shows
      the loaded page of unfiltered results together with the earlier
      error. */
  lemma ErrorOutlivesLoadMore(c: Criteria, ms: seq<Movie>)
    ensures var st := Run(Initial, [DiscoverMovies(c, Failed(None)), LoadMore(Loaded(ms))]);
            st.movies == ms && st.error == Some(LoadFailed) && st.currentPage == 2
    ensures Sends(Step(Initial, DiscoverMovies(c, Failed(None))), LoadMore(Loaded(ms)))
            == FetchDiscover(NoCriteria.(page := Some(2)))
  {
    var s1 := Step(Initial, DiscoverMovies(c, Failed(None)));
    var s2 := Step(s1, LoadMore(Loaded(ms)));
    assert s2.movies == [] + ms;
    assert Run(Initial, [DiscoverMovies(c, Failed(None)), LoadMore(Loaded(ms))]) == Run(s1, [LoadMore(Loaded(ms))]);
    assert Run(s1, [LoadMore(Loaded(ms))]) == Run(s2, []);
  }

  /** Two full pages of a discovery: both are shown in order, page 2 of the
      same criteria was asked for, and more may follow. */
  lemma TwoPages(c: Criteria, p1: seq<Movie>, p2: seq<Movie>)
    requires FullPage(p1) && FullPage(p2)
    ensures var st := Run(Initial, [DiscoverMovies(c, Loaded(p1)), LoadMore(Loaded(p2))]);
            st.movies == p1 + p2 && st.currentPage == 2 && st.hasMore && st.error.None?
    ensures Sends(Step(Initial, DiscoverMovies(c, Loaded(p1))), LoadMore(Loaded(p2)))
            == FetchDiscover(c.(page := Some(2)))
  {
    var s1 := Step(Initial, DiscoverMovies(c, Loaded(p1)));
    var s2 := Step(s1, LoadMore(Loaded(p2)));
    assert Run(Initial, [DiscoverMovies(c, Loaded(p1)), LoadMore(Loaded(p2))]) == Run(s1, [LoadMore(Loaded(p2))]);
    assert Run(s1, [LoadMore(Loaded(p2))]) == Run(s2, []);
  }

  /** After a short page "load more" does nothing until a new discovery or
      search. */
  lemma ShortPageStops(st: State, ms: seq<Movie>, o: Outcome)
    requires Valid(st) && st.hasMore && !FullPage(ms)
    ensures var s1 := Step(st, LoadMore(Loaded(ms)));
            Step(s1, LoadMore(o)) == s1 && Sends(s1, LoadMore(o)) == NoFetch
  {
  }
}

=== FILE: query.dfy ===
/** How the catalog client turns a `MovieCriteria` (or a free-text query)
    into the ordered query parameters of a discovery (or search) request.
    Parameters are an ordered key/value list; percent-encoding is not
    modelled. */
module Query {
  import opened Wrappers
  import opened Text
  import opened GenreCatalog

  /** The four sort orders a caller may ask for. */
  datatype SortKey = Popularity | Rating | ReleaseDate | Revenue

  /** `MovieCriteria`: every field may be left out. `minRating` is held as
      a whole number of tenths (7.5 is 75). */
  datatype Criteria = Criteria(
    genres: Option<seq<string>>,
    releaseYearMin: Option<int>,
    releaseYearMax: Option<int>,
    runtimeMin: Option<int>,
    runtimeMax: Option<int>,
    minRating: Option<int>,
    includeAdult: Option<bool>,
    sortBy: Option<SortKey>,
    page: Option<int>)

  /** The empty criteria object `{}`. */
  const NoCriteria: Criteria := Criteria(None, None, None, None, None, None, None, None, None)

  /** The query parameter names the client sends. */
  datatype ParamKey =
    | ApiKey | Language | PageKey | IncludeAdult | VoteCountGte
    | WithGenres | ReleaseDateGte | ReleaseDateLte
    | RuntimeGte | RuntimeLte | VoteAverageGte | SortBy
    | QueryText

  /** The name each parameter carries on the wire. */
  function WireName(k: ParamKey): string {
    match k
    case ApiKey => "api_key"
    case Language => "language"
    case PageKey => "page"
    case IncludeAdult => "include_adult"
    case VoteCountGte => "vote_count.gte"
    case WithGenres => "with_genres"
    case ReleaseDateGte => "primary_release_date.gte"
    case ReleaseDateLte => "primary_release_date.lte"
    case RuntimeGte => "with_runtime.gte"
    case RuntimeLte => "with_runtime.lte"
    case VoteAverageGte => "vote_average.gte"
    case SortBy => "sort_by"
    case QueryText => "query"
  }

  /** No two parameters share a wire name. */
  lemma WireNamesDistinct(a: ParamKey, b: ParamKey)
    requires a != b
    ensures WireName(a) != WireName(b)
  {
  }

  type Param = (ParamKey, string)

  /** `params.get(k)`: the first value given for `k`. */
  function Lookup(ps: seq<Param>, k: ParamKey): (r: Option<string>)
    ensures r.Some? ==> (k, r.value) in ps
    decreases |ps|
  {
    if ps == [] then None
    else if ps[0].0 == k then Some(ps[0].1)
    else
      var r := Lookup(ps[1..], k);
      assert r.Some? ==> (k, r.value) in ps[1..];
      r
  }

  /** A lookup fails exactly when no parameter carries the key. */
  lemma {:induction false} LookupNone(ps: seq<Param>, k: ParamKey)
    ensures Lookup(ps, k).None? <==> forall i :: 0 <= i < |ps| ==> ps[i].0 != k
    decreases |ps|
  {
    if ps != [] {
      LookupNone(ps[1..], k);
      assert forall i :: 1 <= i < |ps| ==> ps[i] == ps[1..][i - 1];
    }
  }

  predicate DistinctKeys(ps: seq<Param>) {
    forall i, j :: 0 <= i < j < |ps| ==> ps[i].0 != ps[j].0
  }

  /** With distinct keys, the value a key is given is the one found. */
  lemma LookupDistinct(ps: seq<Param>, k: ParamKey, v: string)
    requires DistinctKeys(ps) && (k, v) in ps
    ensures Lookup(ps, k) == Some(v)
  {
    var i :| 0 <= i < |ps| && ps[i] == (k, v);
    LookupNone(ps, k);
    var r := Lookup(ps, k);
    var j :| 0 <= j < |ps| && ps[j] == (k, r.value);
  }

  lemma LookupMissing(ps: seq<Param>, k: ParamKey)
    requires forall p :: p in ps ==> p.0 != k
    ensures Lookup(ps, k) == None
  {
    LookupNone(ps, k);
    assert forall i :: 0 <= i < |ps| ==> ps[i] in ps;
  }

  /** JavaScript truthiness of an optional number: present and non-zero. */
  predicate Truthy(n: Option<int>) {
    n.Some? && n.value != 0
  }

  /** `criteria.page || 1`. */
  function EffectivePage(c: Criteria): int {
    if Truthy(c.page) then c.page.value else 1
  }

  /** The `sortMapping` table. */
  function SortToken(k: SortKey): string {
    match k
    case Popularity => "popularity.desc"
    case Rating => "vote_average.desc"
    case ReleaseDate => "release_date.desc"
    case Revenue => "revenue.desc"
  }

  lemma SortTokensDistinct(a: SortKey, b: SortKey)
    requires a != b
    ensures SortToken(a) != SortToken(b)
  {
  }

  /** The ids the genre filter sends: only a non-empty name list is looked at. */
  function GenreIds(m: GenreMap, c: Criteria): seq<int> {
    if c.genres.Some? && |c.genres.value| > 0 then ResolveNames(m, c.genres.value) else []
  }

  /** The five parameters every discovery request carries. */
  function BaseParams(apiKey: string, c: Criteria): seq<Param> {
    [ (ApiKey, apiKey),
      (Language, "en-US"),
      (PageKey, IntToString(EffectivePage(c))),
      (IncludeAdult, if c.includeAdult == Some(true) then "true" else "false"),
      (VoteCountGte, "100") ]
  }

  /** A parameter the client appends only when its guard holds. */
  datatype Appended = Appended(key: ParamKey, when: bool, value: string)

  /** The parameters actually appended, in order. */
  function Present(es: seq<Appended>): (ps: seq<Param>)
    ensures |ps| <= |es|
  {
    if es == [] then []
    else (if es[0].when then [(es[0].key, es[0].value)] else []) + Present(es[1..])
  }

  /** The keys `discoverMovies` may append, in the order it appends them:
      genres, the two year bounds, the two runtime bounds, the rating
      floor, and the sort order. */
  const AppendOrder: seq<ParamKey> :=
    [WithGenres, ReleaseDateGte, ReleaseDateLte, RuntimeGte, RuntimeLte, VoteAverageGte, SortBy]

  /** Whether the client appends `k`: each filter only when its criterion
      is set and truthy, the sort order always. Base keys are never
      appended. */
  function Guard(m: GenreMap, c: Criteria, k: ParamKey): bool {
    match k
    case WithGenres => |GenreIds(m, c)| > 0
    case ReleaseDateGte => Truthy(c.releaseYearMin)
    case ReleaseDateLte => Truthy(c.releaseYearMax)
    case RuntimeGte => Truthy(c.runtimeMin)
    case RuntimeLte => Truthy(c.runtimeMax)
    case VoteAverageGte => Truthy(c.minRating)
    case SortBy => true
    case _ => false
  }

  /** The value the client appends for `k` when it does. */
  function Value(m: GenreMap, c: Criteria, k: ParamKey): string {
    match k
    case WithGenres => JoinInts(GenreIds(m, c))
    case ReleaseDateGte => IntToString(c.releaseYearMin.GetOr(0)) + "-01-01"
    case ReleaseDateLte => IntToString(c.releaseYearMax.GetOr(0)) + "-12-31"
    case RuntimeGte => IntToString(c.runtimeMin.GetOr(0))
    case RuntimeLte => IntToString(c.runtimeMax.GetOr(0))
    case VoteAverageGte => TenthsToString(c.minRating.GetOr(0))
    case SortBy => SortToken(c.sortBy.GetOr(Popularity))
    case _ => ""
  }

  function Appends(m: GenreMap, c: Criteria): seq<Appended> {
    seq(|AppendOrder|, i requires 0 <= i < |AppendOrder| =>
      Appended(AppendOrder[i], Guard(m, c, AppendOrder[i]), Value(m, c, AppendOrder[i])))
  }

  /** The query of `discoverMovies(criteria)` against the genre map `m`. */
  function DiscoverParams(m: GenreMap, apiKey: string, c: Criteria): seq<Param> {
    BaseParams(apiKey, c) + Present(Appends(m, c))
  }

  /** The query of `searchMovies(query, page)`. */
  function SearchParams(apiKey: string, query: string, page: int): seq<Param> {
    [ (ApiKey, apiKey),
      (Language, "en-US"),
      (QueryText, query),
      (PageKey, IntToString(page)),
      (IncludeAdult, "false") ]
  }

  // ---------------------------------------------------------------------
  // Lookup through appended parameters
  // ---------------------------------------------------------------------

  /** Parameters with other keys in front of a list do not change a lookup. */
  lemma {:induction false} LookupSkip(a: seq<Param>, b: seq<Param>, k: ParamKey)
    requires forall i :: 0 <= i < |a| ==> a[i].0 != k
    ensures Lookup(a + b, k) == Lookup(b, k)
    decreases |a|
  {
    if a == [] {
      assert a + b == b;
    } else {
      assert (a + b)[0] == a[0];
      assert (a + b)[1..] == a[1..] + b;
      LookupSkip(a[1..], b, k);
    }
  }

  /** A key already found in a list is not affected by what is appended. */
  lemma {:induction false} LookupFirst(a: seq<Param>, b: seq<Param>, k: ParamKey)
    requires Lookup(a, k).Some?
    ensures Lookup(a + b, k) == Lookup(a, k)
    decreases |a|
  {
    assert (a + b)[0] == a[0];
    if a[0].0 != k {
      assert (a + b)[1..] == a[1..] + b;
      LookupFirst(a[1..], b, k);
    }
  }

  /** Every appended parameter comes from an entry whose guard held. */
  lemma {:induction false} PresentFrom(es: seq<Appended>, p: Param)
    requires p in Present(es)
    ensures exists i :: 0 <= i < |es| && es[i].when && es[i].key == p.0 && es[i].value == p.1
    decreases |es|
  {
    var head := if es[0].when then [(es[0].key, es[0].value)] else [];
    if p !in head {
      assert p in Present(es[1..]);
      PresentFrom(es[1..], p);
      var i :| 0 <= i < |es[1..]| && es[1..][i].when && es[1..][i].key == p.0 && es[1..][i].value == p.1;
      assert es[i + 1] == es[1..][i];
    }
  }

  /** A key no entry carries is never sent. */
  lemma PresentMissing(es: seq<Appended>, k: ParamKey)
    requires forall i :: 0 <= i < |es| ==> es[i].key != k
    ensures Lookup(Present(es), k) == None
  {
    forall p | p in Present(es) ensures p.0 != k {
      PresentFrom(es, p);
    }
    LookupMissing(Present(es), k);
  }

  /** An entry whose key no other entry carries is sent exactly when its
      guard holds, with its own value. */
  lemma {:induction false} LookupPresent(es: seq<Appended>, j: nat)
    requires j < |es|
    requires forall i :: 0 <= i < |es| && i != j ==> es[i].key != es[j].key
    ensures Lookup(Present(es), es[j].key) == if es[j].when then Some(es[j].value) else None
    decreases j
  {
    var k := es[j].key;
    var head := if es[0].when then [(es[0].key, es[0].value)] else [];
    assert Present(es) == head + Present(es[1..]);
    if j == 0 {
      if es[0].when {
        LookupFirst(head, Present(es[1..]), k);
      } else {
        assert Present(es) == Present(es[1..]);
        forall i | 0 <= i < |es[1..]| ensures es[1..][i].key != k {
          assert es[1..][i] == es[i + 1];
        }
        PresentMissing(es[1..], k);
      }
    } else {
      LookupSkip(head, Present(es[1..]), k);
      assert es[1..][j - 1] == es[j];
      forall i | 0 <= i < |es[1..]| && i != j - 1 ensures es[1..][i].key != k {
        assert es[1..][i] == es[i + 1];
      }
      LookupPresent(es[1..], j - 1);
    }
  }

  // ---------------------------------------------------------------------
  // Parameter order
  // ---------------------------------------------------------------------

  /** Position of each discovery parameter in the order the client builds. */
  function Rank(k: ParamKey): nat {
    match k
    case ApiKey => 0
    case Language => 1
    case PageKey => 2
    case IncludeAdult => 3
    case VoteCountGte => 4
    case WithGenres => 5
    case ReleaseDateGte => 6
    case ReleaseDateLte => 7
    case RuntimeGte => 8
    case RuntimeLte => 9
    case VoteAverageGte => 10
    case SortBy => 11
    case QueryText => 12
  }

  predicate InOrder(ps: seq<Param>) {
    forall i, j :: 0 <= i < j < |ps| ==> Rank(ps[i].0) < Rank(ps[j].0)
  }

  predicate Ascending(es: seq<Appended>) {
    forall i, j :: 0 <= i < j < |es| ==> Rank(es[i].key) < Rank(es[j].key)
  }

  predicate RanksBelow(ps: seq<Param>, r: nat) {
    forall p :: p in ps ==> Rank(p.0) < r
  }

  predicate RanksFrom(ps: seq<Param>, r: nat) {
    forall p :: p in ps ==> r <= Rank(p.0)
  }

  lemma InOrderAppend(a: seq<Param>, b: seq<Param>, r: nat)
    requires InOrder(a) && InOrder(b) && RanksBelow(a, r) && RanksFrom(b, r)
    ensures InOrder(a + b)
  {
    forall i, j | 0 <= i < j < |a + b| ensures Rank((a + b)[i].0) < Rank((a + b)[j].0) {
      if i < |a| && j >= |a| {
        assert (a + b)[i] == a[i] && a[i] in a;
        assert (a + b)[j] == b[j - |a|] && b[j - |a|] in b;
      } else if i >= |a| {
        assert (a + b)[i] == b[i - |a|] && (a + b)[j] == b[j - |a|];
      } else {
        assert (a + b)[i] == a[i] && (a + b)[j] == a[j];
      }
    }
  }

  /** Entries in ascending order give parameters in ascending order. */
  lemma {:induction false} PresentInOrder(es: seq<Appended>)
    requires Ascending(es)
    ensures InOrder(Present(es))
    decreases |es|
  {
    if es != [] {
      var head := if es[0].when then [(es[0].key, es[0].value)] else [];
      assert Ascending(es[1..]) by {
        forall i, j | 0 <= i < j < |es[1..]| ensures Rank(es[1..][i].key) < Rank(es[1..][j].key) {
          assert es[1..][i] == es[i + 1] && es[1..][j] == es[j + 1];
        }
      }
      PresentInOrder(es[1..]);
      forall p | p in Present(es[1..]) ensures Rank(es[0].key) + 1 <= Rank(p.0) {
        PresentFrom(es[1..], p);
        var i :| 0 <= i < |es[1..]| && es[1..][i].key == p.0;
        assert es[1..][i] == es[i + 1];
      }
      InOrderAppend(head, Present(es[1..]), Rank(es[0].key) + 1);
    }
  }

  /** The last entry, when its guard holds, gives the last parameter. */
  lemma {:induction false} PresentLast(es: seq<Appended>)
    requires |es| > 0 && es[|es| - 1].when
    ensures |Present(es)| > 0
    ensures Present(es)[|Present(es)| - 1] == (es[|es| - 1].key, es[|es| - 1].value)
    decreases |es|
  {
    var head := if es[0].when then [(es[0].key, es[0].value)] else [];
    var rest := Present(es[1..]);
    if |es| == 1 {
      assert es[1..] == [];
      assert Present(es) == head + [];
    } else {
      assert es[1..][|es[1..]| - 1] == es[|es| - 1];
      PresentLast(es[1..]);
      assert Present(es) == head + rest;
    }
  }

  // ---------------------------------------------------------------------
  // Properties of the discovery query
  // ---------------------------------------------------------------------

  /** The appended filters' keys take the ranks 5 to 11 in turn. */
  lemma AppendsAscending(m: GenreMap, c: Criteria)
    ensures Ascending(Appends(m, c))
  {
    assert forall i :: 0 <= i < |AppendOrder| ==> Rank(AppendOrder[i]) == i + 5;
  }

  /** The appended entries carry the keys of `AppendOrder`, in turn. */
  lemma AppendsKeys(m: GenreMap, c: Criteria)
    ensures |Appends(m, c)| == |AppendOrder|
    ensures forall i :: 0 <= i < |AppendOrder| ==>
              Appends(m, c)[i].key == AppendOrder[i] && Rank(AppendOrder[i]) == i + 5
  {
  }

  /** The base parameters carry the ranks 0 to 4. */
  lemma BaseKeys(apiKey: string, c: Criteria)
    ensures |BaseParams(apiKey, c)| == 5
    ensures forall i :: 0 <= i < 5 ==> Rank(BaseParams(apiKey, c)[i].0) == i
  {
  }

  /** Each appended filter is sent exactly when its guard holds, with its
      own value: neither a base parameter nor another filter shadows it. */
  lemma LookupAppended(m: GenreMap, apiKey: string, c: Criteria, k: ParamKey)
    requires k in AppendOrder
    ensures Lookup(DiscoverParams(m, apiKey, c), k) == if Guard(m, c, k) then Some(Value(m, c, k)) else None
  {
    var es := Appends(m, c);
    var base := BaseParams(apiKey, c);
    var j :| 0 <= j < |AppendOrder| && AppendOrder[j] == k;
    AppendsKeys(m, c);
    BaseKeys(apiKey, c);
    assert es[j] == Appended(k, Guard(m, c, k), Value(m, c, k));
    LookupSkip(base, Present(es), k);
    LookupPresent(es, j);
  }

  /** The base parameters take the ranks 0 to 4 in turn. */
  lemma BaseInOrder(apiKey: string, c: Criteria)
    ensures InOrder(BaseParams(apiKey, c)) && RanksBelow(BaseParams(apiKey, c), 5)
  {
    var base := BaseParams(apiKey, c);
    assert |base| == 5;
    assert forall i :: 0 <= i < 5 ==> Rank(base[i].0) == i;
    forall p | p in base ensures Rank(p.0) < 5 {
      var i :| 0 <= i < 5 && base[i] == p;
    }
  }

  lemma InOrderDistinct(ps: seq<Param>)
    requires InOrder(ps)
    ensures DistinctKeys(ps)
  {
  }

  /** The discovery query lists each parameter at most once, in the order
      api_key, language, page, include_adult, vote_count.gte, then the
      filters. */
  lemma DiscoverParamsInOrder(m: GenreMap, apiKey: string, c: Criteria)
    ensures InOrder(DiscoverParams(m, apiKey, c))
    ensures DistinctKeys(DiscoverParams(m, apiKey, c))
  {
    var es := Appends(m, c);
    var base := BaseParams(apiKey, c);
    var rest := Present(es);
    AppendsAscending(m, c);
    PresentInOrder(es);
    forall p | p in rest ensures 5 <= Rank(p.0) {
      PresentFrom(es, p);
    }
    BaseInOrder(apiKey, c);
    InOrderAppend(base, rest, 5);
    InOrderDistinct(base + rest);
  }

  /** The base parameters come first and sort_by comes last. */
  lemma DiscoverParamsEnds(m: GenreMap, apiKey: string, c: Criteria)
    ensures DiscoverParams(m, apiKey, c)[..5] == BaseParams(apiKey, c)
    ensures DiscoverParams(m, apiKey, c)[|DiscoverParams(m, apiKey, c)| - 1].0 == SortBy
  {
    var es := Appends(m, c);
    var base := BaseParams(apiKey, c);
    var rest := Present(es);
    var ps := base + rest;
    assert |es| == 7 && es[6] == Appended(SortBy, true, Value(m, c, SortBy));
    PresentLast(es);
    assert ps[|ps| - 1] == rest[|rest| - 1];
    assert ps[..5] == base;
  }

  /** Every discovery request carries the key, the language `en-US`, the
      page (`1` when absent or zero), the adult flag (`false` unless
      explicitly `true`) and the vote-count floor of 100. */
  lemma DiscoverAlwaysSends(m: GenreMap, apiKey: string, c: Criteria)
    ensures Lookup(DiscoverParams(m, apiKey, c), ApiKey) == Some(apiKey)
    ensures Lookup(DiscoverParams(m, apiKey, c), Language) == Some("en-US")
    ensures Lookup(DiscoverParams(m, apiKey, c), PageKey) == Some(IntToString(if c.page.None? || c.page == Some(0) then 1 else c.page.value))
    ensures Lookup(DiscoverParams(m, apiKey, c), IncludeAdult) == Some(if c.includeAdult == Some(true) then "true" else "false")
    ensures Lookup(DiscoverParams(m, apiKey, c), VoteCountGte) == Some("100")
  {
    BaseSent(m, apiKey, c, 0);
    BaseSent(m, apiKey, c, 1);
    BaseSent(m, apiKey, c, 2);
    BaseSent(m, apiKey, c, 3);
    BaseSent(m, apiKey, c, 4);
  }

  /** Each base parameter is sent with its own value. */
  lemma BaseSent(m: GenreMap, apiKey: string, c: Criteria, i: nat)
    requires i < 5
    ensures Lookup(DiscoverParams(m, apiKey, c), BaseParams(apiKey, c)[i].0) == Some(BaseParams(apiKey, c)[i].1)
  {
    var base := BaseParams(apiKey, c);
    assert base[i] in base;
    LookupDistinct(base, base[i].0, base[i].1);
    LookupFirst(base, Present(Appends(m, c)), base[i].0);
  }

  /** The genre filter is sent exactly when some requested name resolves,
      and its value decodes to the resolved ids in input order. */
  lemma DiscoverGenreFilter(m: GenreMap, apiKey: string, c: Criteria)
    ensures Lookup(DiscoverParams(m, apiKey, c), WithGenres).Some?
            <==> c.genres.Some? && exists i :: 0 <= i < |c.genres.value| && Resolves(m, c.genres.value[i])
    ensures Lookup(DiscoverParams(m, apiKey, c), WithGenres).Some? ==>
            var parts := SplitComma(Lookup(DiscoverParams(m, apiKey, c), WithGenres).value);
            var ids := ResolveNames(m, c.genres.value);
            |parts| == |ids| && forall i :: 0 <= i < |ids| ==> ParseInt(parts[i]) == Some(ids[i])
  {
    var ids := GenreIds(m, c);
    LookupAppended(m, apiKey, c, WithGenres);
    if c.genres.Some? {
      ResolveNamesEmpty(m, c.genres.value);
    }
    if |ids| > 0 {
      JoinIntsDecodes(ids);
    }
  }

  /** An absent or empty genre list sends no genre filter at all. */
  lemma DiscoverNoGenres(m: GenreMap, apiKey: string, c: Criteria)
    requires c.genres.None? || c.genres.value == []
    ensures Lookup(DiscoverParams(m, apiKey, c), WithGenres) == None
  {
    LookupAppended(m, apiKey, c, WithGenres);
  }

  /** Year bounds become the first and last day of the year; each is sent
      only when set and non-zero. */
  lemma DiscoverYearBounds(m: GenreMap, apiKey: string, c: Criteria)
    ensures Lookup(DiscoverParams(m, apiKey, c), ReleaseDateGte)
            == (if Truthy(c.releaseYearMin) then Some(IntToString(c.releaseYearMin.value) + "-01-01") else None)
    ensures Lookup(DiscoverParams(m, apiKey, c), ReleaseDateLte)
            == (if Truthy(c.releaseYearMax) then Some(IntToString(c.releaseYearMax.value) + "-12-31") else None)
  {
    LookupAppended(m, apiKey, c, ReleaseDateGte);
    LookupAppended(m, apiKey, c, ReleaseDateLte);
  }

  /** A year bound gives its year back: strip the six-character day suffix
      and parse. */
  lemma YearBoundDecodes(y: int, suffix: string)
    requires suffix == "-01-01" || suffix == "-12-31"
    ensures var s := IntToString(y) + suffix; ParseInt(s[..|s| - 6]) == Some(y)
  {
    var s := IntToString(y) + suffix;
    assert s[..|s| - 6] == IntToString(y);
    IntToStringRoundTrip(y);
  }

  /** Runtime and rating bounds pass through unchanged, each only when set
      and non-zero. */
  lemma DiscoverRangeFilters(m: GenreMap, apiKey: string, c: Criteria)
    ensures Lookup(DiscoverParams(m, apiKey, c), RuntimeGte)
            == (if Truthy(c.runtimeMin) then Some(IntToString(c.runtimeMin.value)) else None)
    ensures Lookup(DiscoverParams(m, apiKey, c), RuntimeLte)
            == (if Truthy(c.runtimeMax) then Some(IntToString(c.runtimeMax.value)) else None)
    ensures Lookup(DiscoverParams(m, apiKey, c), VoteAverageGte)
            == (if Truthy(c.minRating) then Some(TenthsToString(c.minRating.value)) else None)
  {
    RuntimeMinSent(m, apiKey, c);
    RuntimeMaxSent(m, apiKey, c);
    MinRatingSent(m, apiKey, c);
  }

  lemma RuntimeMinSent(m: GenreMap, apiKey: string, c: Criteria)
    ensures Lookup(DiscoverParams(m, apiKey, c), RuntimeGte)
            == (if Truthy(c.runtimeMin) then Some(IntToString(c.runtimeMin.value)) else None)
  {
    LookupAppended(m, apiKey, c, RuntimeGte);
  }

  lemma RuntimeMaxSent(m: GenreMap, apiKey: string, c: Criteria)
    ensures Lookup(DiscoverParams(m, apiKey, c), RuntimeLte)
            == (if Truthy(c.runtimeMax) then Some(IntToString(c.runtimeMax.value)) else None)
  {
    LookupAppended(m, apiKey, c, RuntimeLte);
  }

  lemma MinRatingSent(m: GenreMap, apiKey: string, c: Criteria)
    ensures Lookup(DiscoverParams(m, apiKey, c), VoteAverageGte)
            == (if Truthy(c.minRating) then Some(TenthsToString(c.minRating.value)) else None)
  {
    LookupAppended(m, apiKey, c, VoteAverageGte);
  }

  /** The sort order is always sent, as the token of the requested key or
      of popularity when none is requested. */
  lemma DiscoverSortBy(m: GenreMap, apiKey: string, c: Criteria)
    ensures Lookup(DiscoverParams(m, apiKey, c), SortBy) == Some(SortToken(c.sortBy.GetOr(Popularity)))
    ensures c.sortBy.None? ==> Lookup(DiscoverParams(m, apiKey, c), SortBy) == Some("popularity.desc")
  {
    LookupAppended(m, apiKey, c, SortBy);
  }

  // ---------------------------------------------------------------------
  // Properties of the search query
  // ---------------------------------------------------------------------

  /** A search sends the text and page as given and never asks for adult
      titles, whatever the caller's criteria elsewhere say. */
  lemma SearchParamsSend(apiKey: string, query: string, page: int)
    ensures DistinctKeys(SearchParams(apiKey, query, page))
    ensures Lookup(SearchParams(apiKey, query, page), IncludeAdult) == Some("false")
    ensures Lookup(SearchParams(apiKey, query, page), QueryText) == Some(query)
    ensures Lookup(SearchParams(apiKey, query, page), PageKey) == Some(IntToString(page))
    ensures Lookup(SearchParams(apiKey, query, page), Language) == Some("en-US")
    ensures Lookup(SearchParams(apiKey, query, page), VoteCountGte) == None
    ensures Lookup(SearchParams(apiKey, query, page), ApiKey) == Some(apiKey)
  {
    SearchKeysDistinct(apiKey, query, page);
    SearchSent(apiKey, query, page, ApiKey, apiKey);
    SearchSent(apiKey, query, page, IncludeAdult, "false");
    SearchSent(apiKey, query, page, QueryText, query);
    SearchSent(apiKey, query, page, PageKey, IntToString(page));
    SearchSent(apiKey, query, page, Language, "en-US");
    SearchOmitsVoteCount(apiKey, query, page);
  }

  lemma SearchKeysDistinct(apiKey: string, query: string, page: int)
    ensures DistinctKeys(SearchParams(apiKey, query, page))
  {
  }

  /** Each search parameter is sent with its own value. */
  lemma SearchSent(apiKey: string, query: string, page: int, k: ParamKey, v: string)
    requires (k, v) in SearchParams(apiKey, query, page)
    ensures Lookup(SearchParams(apiKey, query, page), k) == Some(v)
  {
    SearchKeysDistinct(apiKey, query, page);
    LookupDistinct(SearchParams(apiKey, query, page), k, v);
  }

  lemma SearchOmitsVoteCount(apiKey: string, query: string, page: int)
    ensures Lookup(SearchParams(apiKey, query, page), VoteCountGte) == None
  {
    var ps := SearchParams(apiKey, query, page);
    assert forall p :: p in ps ==> p.0 != VoteCountGte;
    LookupMissing(ps, VoteCountGte);
  }
}

=== FILE: text.dfy ===
/** The string operations the catalog client relies on from the JavaScript
    runtime: number-to-string conversion, `toLowerCase`, `trim`,
    `Array.join(',')`, and the default ordering of `Array.sort`, taken
    here character by character as code points. */
module Text {
  import opened Wrappers

  // ---------------------------------------------------------------------
  // Decimal rendering of integers (`Number.prototype.toString()`)
  // ---------------------------------------------------------------------

  predicate IsDigit(c: char) {
    '0' <= c <= '9'
  }

  predicate AllDigits(s: string) {
    forall i :: 0 <= i < |s| ==> IsDigit(s[i])
  }

  function DigitValue(c: char): (d: nat)
    requires IsDigit(c)
    ensures d < 10
  {
    (c as int) - ('0' as int)
  }

  function DigitChar(d: nat): (c: char)
    requires d < 10
    ensures IsDigit(c) && DigitValue(c) == d
  {
    ((('0' as int) + d) as char)
  }

  /** Shortest decimal rendering of a natural number: no sign, and no
      leading zero unless the number is zero itself. */
  function NatToString(n: nat): (s: string)
    ensures |s| > 0 && AllDigits(s)
    ensures s[0] == '0' ==> n == 0 && |s| == 1
    decreases n
  {
    if n < 10 then [DigitChar(n)] else NatToString(n / 10) + [DigitChar(n % 10)]
  }

  /** `n.toString()` for an integral number. */
  function IntToString(n: int): (s: string)
    ensures |s| > 0
    ensures n >= 0 <==> AllDigits(s)
    ensures n < 0 ==> s[0] == '-' && AllDigits(s[1..])
  {
    if n < 0 then
      var s := "-" + NatToString(-n);
      assert !IsDigit(s[0]) && s[1..] == NatToString(-n);
      s
    else NatToString(n)
  }

  /** Reads a string of decimal digits back as a number. */
  function ParseDigits(s: string): nat
    requires AllDigits(s)
    decreases |s|
  {
    if s == [] then 0 else 10 * ParseDigits(s[..|s| - 1]) + DigitValue(s[|s| - 1])
  }

  /** Digits as `toString` writes them: at least one, and no leading zero
      unless the number is zero itself. */
  predicate Canonical(s: string) {
    |s| > 0 && AllDigits(s) && (s[0] == '0' ==> |s| == 1)
  }

  /** Reads a decimal integer written as `toString` writes it: canonical
      digits, optionally after a minus sign for a non-zero magnitude.
      `None` for anything else, leading zeros and `-0` included. */
  function ParseInt(s: string): Option<int> {
    if Canonical(s) then Some(ParseDigits(s))
    else if |s| > 1 && s[0] == '-' && Canonical(s[1..]) && s[1] != '0' then Some(0 - ParseDigits(s[1..]) as int)
    else None
  }

  lemma {:induction false} ParseNatToString(n: nat)
    ensures ParseDigits(NatToString(n)) == n
    decreases n
  {
    if n >= 10 {
      ParseNatToString(n / 10);
      var s := NatToString(n / 10) + [DigitChar(n % 10)];
      assert s[..|s| - 1] == NatToString(n / 10);
    }
  }

  /** Rendering an integer loses nothing: it parses back to itself. */
  lemma IntToStringRoundTrip(n: int)
    ensures ParseInt(IntToString(n)) == Some(n)
  {
    ParseNatToString(if n < 0 then -n else n);
    if n < 0 {
      var s := IntToString(n);
      assert s[1..] == NatToString(-n);
      assert !IsDigit(s[0]);
    }
  }

  /** Reads a count of tenths back from a rendered number: either an
      integer, or an integer part, a point and one non-zero digit. */
  function ParseTenths(s: string): Option<int> {
    if |s| >= 2 && s[|s| - 2] == '.' then ReadTenths(s[..|s| - 2], s[|s| - 1])
    else
      match ParseInt(s)
      case Some(n) => Some(10 * n)
      case None => None
  }

  /** The integer part (optionally negative, without leading zeros, and
      possibly `-0`) and the tenths digit of a fractional rendering. */
  function ReadTenths(whole: string, d: char): Option<int> {
    if !IsDigit(d) || d == '0' then None
    else if |whole| > 1 && whole[0] == '-' && Canonical(whole[1..]) then
      Some(-(10 * ParseDigits(whole[1..]) + DigitValue(d)))
    else if Canonical(whole) then Some(10 * ParseDigits(whole) + DigitValue(d))
    else None
  }

  /** `(t / 10).toString()` for a number held as a whole count of tenths:
      `75` renders as "7.5", `70` as "7", `-5` as "-0.5". */
  function TenthsToString(t: int): (s: string)
    ensures |s| > 0
    ensures ParseTenths(s) == Some(t)
    ensures t % 10 == 0 ==> ParseInt(s) == Some(t / 10)
    ensures t % 10 != 0 ==> |s| >= 3 && s[|s| - 2] == '.'
  {
    if t % 10 == 0 then
      WholeTenths(t);
      IntToString(t / 10)
    else
      FractionalTenths(t);
      FractionalString(t)
  }

  /** The rendering of a count of tenths that is not a whole number. */
  function FractionalString(t: int): string
    requires t % 10 != 0
  {
    var a := if t < 0 then -t else t;
    (if t < 0 then "-" else "") + NatToString(a / 10) + "." + [DigitChar(a % 10)]
  }

  lemma WholeTenths(t: int)
    requires t % 10 == 0
    ensures ParseInt(IntToString(t / 10)) == Some(t / 10)
    ensures ParseTenths(IntToString(t / 10)) == Some(t)
  {
    var s := IntToString(t / 10);
    IntToStringRoundTrip(t / 10);
    NotInNumber(t / 10, '.');
    if |s| >= 3 {
      assert s[|s| - 2] in s;
    }
  }

  lemma FractionalTenths(t: int)
    requires t % 10 != 0
    ensures |FractionalString(t)| >= 3 && FractionalString(t)[|FractionalString(t)| - 2] == '.'
    ensures ParseTenths(FractionalString(t)) == Some(t)
  {
    var a := if t < 0 then -t else t;
    assert a % 10 != 0;
    var w := NatToString(a / 10);
    var d := DigitChar(a % 10);
    PointAfter(a);
    if t < 0 {
      assert FractionalString(t) == ("-" + w) + ['.', d];
    } else {
      assert FractionalString(t) == w + ['.', d];
    }
  }

  /** A magnitude that is not a whole number of tenths, written with its
      integer part, a point and its tenths digit, reads back as itself, and
      negated after a minus sign. */
  lemma PointAfter(a: nat)
    requires a % 10 != 0
    ensures ParseTenths(NatToString(a / 10) + ['.', DigitChar(a % 10)]) == Some(a)
    ensures ParseTenths(("-" + NatToString(a / 10)) + ['.', DigitChar(a % 10)]) == Some(-(a as int))
  {
    var w := NatToString(a / 10);
    var d := DigitChar(a % 10);
    ParseNatToString(a / 10);
    assert DigitValue(d) == a % 10;
    assert 10 * ParseDigits(w) + DigitValue(d) == a;
    ParseTenthsPoint(w, d);
    ParseTenthsPoint("-" + w, d);
    ReadPositive(w, d);
    ReadNegative(w, d);
  }

  /** A rendering with a point before its last character is read as its
      integer part and its tenths digit. */
  lemma ParseTenthsPoint(head: string, d: char)
    ensures ParseTenths(head + ['.', d]) == ReadTenths(head, d)
  {
    var s := head + ['.', d];
    assert s[..|s| - 2] == head && s[|s| - 2] == '.' && s[|s| - 1] == d;
  }

  /** Canonical digits and a non-zero tenths digit read back as the
      count of tenths they spell. */
  lemma ReadPositive(w: string, d: char)
    requires Canonical(w) && IsDigit(d) && d != '0'
    ensures ReadTenths(w, d) == Some(10 * ParseDigits(w) + DigitValue(d))
  {
    assert IsDigit(w[0]);
  }

  /** The same after a minus sign, read back negated. */
  lemma ReadNegative(w: string, d: char)
    requires Canonical(w) && IsDigit(d) && d != '0'
    ensures ReadTenths("-" + w, d) == Some(-(10 * ParseDigits(w) + DigitValue(d)))
  {
    var head := "-" + w;
    assert head[0] == '-' && head[1..] == w;
  }

  // ---------------------------------------------------------------------
  // Case folding (`String.prototype.toLowerCase()`, ASCII letters only)
  // ---------------------------------------------------------------------

  function LowerChar(c: char): char {
    if 'A' <= c <= 'Z' then ((c as int) + 32) as char else c
  }

  function Lower(s: string): (r: string)
    ensures |r| == |s|
    ensures forall i :: 0 <= i < |s| ==> r[i] == LowerChar(s[i])
  {
    seq(|s|, i requires 0 <= i < |s| => LowerChar(s[i]))
  }

  /** Lower-casing twice is lower-casing once, so two names that match
      case-insensitively stay matched after either is lower-cased. */
  lemma LowerIdempotent(s: string)
    ensures Lower(Lower(s)) == Lower(s)
  {
    assert forall i :: 0 <= i < |s| ==> LowerChar(LowerChar(s[i])) == LowerChar(s[i]);
  }

  // ---------------------------------------------------------------------
  // Whitespace trimming (`String.prototype.trim()`)
  // ---------------------------------------------------------------------

  /** The characters ECMAScript's `trim` removes: the white-space and
      line-terminator code points. */
  const JsWhitespace: set<char> := {
    '\t', '\n', '\U{B}', '\U{C}', '\r', ' ', '\U{A0}', '\U{1680}',
    '\U{2000}', '\U{2001}', '\U{2002}', '\U{2003}', '\U{2004}', '\U{2005}',
    '\U{2006}', '\U{2007}', '\U{2008}', '\U{2009}', '\U{200A}',
    '\U{2028}', '\U{2029}', '\U{202F}', '\U{205F}', '\U{3000}', '\U{FEFF}'
  }

  predicate IsJsWhitespace(c: char) {
    c in JsWhitespace
  }

  predicate IsBlank(s: string) {
    forall i :: 0 <= i < |s| ==> IsJsWhitespace(s[i])
  }

  lemma BlankConcat(a: string, b: string)
    requires IsBlank(a) && IsBlank(b)
    ensures IsBlank(a + b)
  {
    forall i | 0 <= i < |a + b| ensures IsJsWhitespace((a + b)[i]) {
      if i >= |a| {
        assert (a + b)[i] == b[i - |a|];
      }
    }
  }

  function TrimStart(s: string): (r: string)
    ensures |r| <= |s| && r == s[|s| - |r|..]
    ensures r == [] || !IsJsWhitespace(r[0])
    ensures IsBlank(s[..|s| - |r|])
    decreases |s|
  {
    if s != [] && IsJsWhitespace(s[0]) then
      var t := s[1..];
      var r := TrimStart(t);
      assert s[|s| - |r|..] == t[|t| - |r|..];
      assert s[..|s| - |r|] == [s[0]] + t[..|t| - |r|];
      BlankConcat([s[0]], t[..|t| - |r|]);
      r
    else s
  }

  function TrimEnd(s: string): (r: string)
    ensures |r| <= |s| && r == s[..|r|]
    ensures r == [] || !IsJsWhitespace(r[|r| - 1])
    ensures IsBlank(s[|r|..])
    decreases |s|
  {
    if s != [] && IsJsWhitespace(s[|s| - 1]) then
      var t := s[..|s| - 1];
      var r := TrimEnd(t);
      assert s[..|r|] == t[..|r|];
      assert s[|r|..] == t[|r|..] + [s[|s| - 1]];
      BlankConcat(t[|r|..], [s[|s| - 1]]);
      r
    else s
  }

  function Trim(s: string): string {
    TrimEnd(TrimStart(s))
  }

  /** `!s.trim()` holds exactly when every character of `s` is white space
      (the empty string included). */
  lemma TrimEmptyIffBlank(s: string)
    ensures Trim(s) == "" <==> IsBlank(s)
  {
    var t := TrimStart(s);
    if Trim(s) == "" {
      assert IsBlank(t[0..]);
      assert s == s[..|s| - |t|] + t;
    }
  }

  // ---------------------------------------------------------------------
  // Comma joining (`Array.prototype.join(',')`) and its inverse
  // ---------------------------------------------------------------------

  /** Position of the first occurrence of `c` in `s`. */
  function IndexOf(s: string, c: char): (r: Option<nat>)
    ensures r.None? ==> c !in s
    ensures r.Some? ==> r.value < |s| && s[r.value] == c && c !in s[..r.value]
    decreases |s|
  {
    if s == [] then None
    else if s[0] == c then Some(0)
    else match IndexOf(s[1..], c)
      case None => None
      case Some(k) => assert s[..k + 1] == [s[0]] + s[1..][..k]; Some(k + 1)
  }

  lemma IndexOfAfterPrefix(a: string, c: char, b: string)
    requires c !in a
    ensures IndexOf(a + [c] + b, c) == Some(|a|)
  {
    var s := a + [c] + b;
    assert s[|a|] == c;
    var r := IndexOf(s, c);
  }

  function JoinComma(parts: seq<string>): string
    decreases |parts|
  {
    if |parts| == 0 then ""
    else if |parts| == 1 then parts[0]
    else parts[0] + "," + JoinComma(parts[1..])
  }

  /** Splits at every comma; the reading side of `JoinComma`. */
  function SplitComma(s: string): (parts: seq<string>)
    ensures |parts| > 0
    decreases |s|
  {
    match IndexOf(s, ',')
    case None => [s]
    case Some(k) => [s[..k]] + SplitComma(s[k + 1..])
  }

  /** Joining comma-free pieces and splitting the result gives the pieces
      back, so a comma-joined list is unambiguous. */
  lemma {:induction false} SplitJoin(parts: seq<string>)
    requires |parts| > 0
    requires forall i :: 0 <= i < |parts| ==> ',' !in parts[i]
    ensures SplitComma(JoinComma(parts)) == parts
    decreases |parts|
  {
    if |parts| > 1 {
      var first := parts[0];
      var tail := parts[1..];
      assert forall i :: 0 <= i < |tail| ==> tail[i] == parts[i + 1];
      var rest := JoinComma(tail);
      var s := first + [','] + rest;
      calc {
        SplitComma(JoinComma(parts));
        { assert JoinComma(parts) == s; }
        SplitComma(s);
        { IndexOfAfterPrefix(first, ',', rest); }
        [s[..|first|]] + SplitComma(s[|first| + 1..]);
        { assert s[..|first|] == first; assert s[|first| + 1..] == rest; }
        [first] + SplitComma(rest);
        { SplitJoin(tail); }
        [first] + tail;
      }
      assert [first] + tail == parts;
    }
  }

  /** The decimal renderings of `ids`, in order. */
  function IntsToStrings(ids: seq<int>): (r: seq<string>)
    ensures |r| == |ids|
    ensures forall i :: 0 <= i < |ids| ==> r[i] == IntToString(ids[i])
  {
    seq(|ids|, i requires 0 <= i < |ids| => IntToString(ids[i]))
  }

  /** `ids.join(',')`: each id's decimal rendering, separated by commas. */
  function JoinInts(ids: seq<int>): string {
    JoinComma(IntsToStrings(ids))
  }

  /** A rendered integer holds only digits and a leading minus sign. */
  lemma NotInNumber(n: int, c: char)
    requires c != '-' && !IsDigit(c)
    ensures c !in IntToString(n)
  {
    var s := IntToString(n);
    if n < 0 {
      assert s == [s[0]] + s[1..];
    }
  }

  /** A comma-joined list of ids decodes back to exactly those ids. */
  lemma {:induction false} JoinIntsDecodes(ids: seq<int>)
    requires |ids| > 0
    ensures |SplitComma(JoinInts(ids))| == |ids|
    ensures forall i :: 0 <= i < |ids| ==> ParseInt(SplitComma(JoinInts(ids))[i]) == Some(ids[i])
  {
    var strs := IntsToStrings(ids);
    forall i | 0 <= i < |ids|
      ensures ',' !in strs[i] && ParseInt(strs[i]) == Some(ids[i])
    {
      NotInNumber(ids[i], ',');
      IntToStringRoundTrip(ids[i]);
    }
    SplitJoin(strs);
  }

  // ---------------------------------------------------------------------
  // Default ordering of `Array.prototype.sort()` on strings
  // ---------------------------------------------------------------------

  /** Lexicographic order on characters; a proper prefix sorts first. */
  predicate LexLe(a: string, b: string)
    decreases |a|
  {
    |a| == 0 || (|b| > 0 && (a[0] < b[0] || (a[0] == b[0] && LexLe(a[1..], b[1..]))))
  }

  lemma {:induction false} LexLeReflexive(a: string)
    ensures LexLe(a, a)
    decreases |a|
  {
    if |a| > 0 {
      LexLeReflexive(a[1..]);
    }
  }

  lemma {:induction false} LexLeTotal(a: string, b: string)
    ensures LexLe(a, b) || LexLe(b, a)
    decreases |a|
  {
    if |a| > 0 && |b| > 0 && a[0] == b[0] {
      LexLeTotal(a[1..], b[1..]);
    }
  }

  lemma {:induction false} LexLeTransitive(a: string, b: string, c: string)
    requires LexLe(a, b) && LexLe(b, c)
    ensures LexLe(a, c)
    decreases |a|
  {
    if |a| > 0 && a[0] == b[0] && b[0] == c[0] {
      LexLeTransitive(a[1..], b[1..], c[1..]);
    }
  }

  lemma {:induction false} LexLeAntisymmetric(a: string, b: string)
    requires LexLe(a, b) && LexLe(b, a)
    ensures a == b
    decreases |a|
  {
    if |a| > 0 {
      LexLeAntisymmetric(a[1..], b[1..]);
      assert a == [a[0]] + a[1..] && b == [b[0]] + b[1..];
    }
  }

  predicate SortedStrings(s: seq<string>) {
    forall i, j :: 0 <= i < j < |s| ==> LexLe(s[i], s[j])
  }

  /** Every element of `s` is at or above `x`. */
  predicate AllAtLeast(x: string, s: seq<string>) {
    forall j :: 0 <= j < |s| ==> LexLe(x, s[j])
  }

  function InsertString(x: string, s: seq<string>): (r: seq<string>)
    requires SortedStrings(s)
    ensures SortedStrings(r)
    ensures multiset(r) == multiset(s) + multiset{x}
    decreases |s|
  {
    if s == [] then [x]
    else if LexLe(x, s[0]) then
      LeastBelowAll(x, s);
      ConsSorted(x, s);
      [x] + s
    else
      LexLeTotal(x, s[0]);
      var t := InsertString(x, s[1..]);
      assert s == [s[0]] + s[1..];
      LeastOfMultiset(s[0], x, s[1..], t);
      ConsSorted(s[0], t);
      [s[0]] + t
  }

  /** A least element in front of a sorted list keeps it sorted. */
  lemma ConsSorted(x: string, t: seq<string>)
    requires AllAtLeast(x, t) && SortedStrings(t)
    ensures SortedStrings([x] + t)
  {
    var r := [x] + t;
    forall i, j | 0 <= i < j < |r| ensures LexLe(r[i], r[j]) {
      assert r[j] == t[j - 1];
      if i > 0 {
        assert r[i] == t[i - 1];
      }
    }
  }

  lemma LeastBelowAll(x: string, s: seq<string>)
    requires SortedStrings(s) && |s| > 0 && LexLe(x, s[0])
    ensures AllAtLeast(x, s)
  {
    forall j | 0 <= j < |s| ensures LexLe(x, s[j]) {
      if j > 0 {
        LexLeTransitive(x, s[0], s[j]);
      }
    }
  }

  lemma LeastOfMultiset(y: string, x: string, s: seq<string>, t: seq<string>)
    requires LexLe(y, x) && AllAtLeast(y, s)
    requires multiset(t) == multiset(s) + multiset{x}
    ensures AllAtLeast(y, t)
  {
    forall j | 0 <= j < |t| ensures LexLe(y, t[j]) {
      assert t[j] in multiset(t);
      if t[j] != x {
        assert t[j] in multiset(s);
        var k :| 0 <= k < |s| && s[k] == t[j];
      }
    }
  }

  /** `Array.prototype.sort()` with no comparator: a permutation of the
      input in ascending order. */
  function SortStrings(s: seq<string>): (r: seq<string>)
    ensures SortedStrings(r)
    ensures multiset(r) == multiset(s)
    decreases |s|
  {
    if s == [] then []
    else
      assert s == [s[0]] + s[1..];
      InsertString(s[0], SortStrings(s[1..]))
  }

  /** The first element of a non-empty ascending sequence is its least. */
  lemma SortedHeadIsLeast(a: seq<string>, x: string)
    requires SortedStrings(a) && x in multiset(a)
    ensures LexLe(a[0], x)
  {
    var i :| 0 <= i < |a| && a[i] == x;
    if i == 0 {
      LexLeReflexive(x);
    }
  }

  lemma SameHeads(a: seq<string>, b: seq<string>)
    requires SortedStrings(a) && SortedStrings(b) && |a| > 0
    requires multiset(a) == multiset(b)
    ensures |b| > 0 && a[0] == b[0]
  {
    assert a[0] in multiset(a);
    SortedHeadIsLeast(b, a[0]);
    assert b[0] in multiset(b);
    SortedHeadIsLeast(a, b[0]);
    LexLeAntisymmetric(a[0], b[0]);
  }

  lemma CancelOne(x: string, m: multiset<string>, n: multiset<string>)
    requires multiset{x} + m == multiset{x} + n
    ensures m == n
  {
    forall y ensures m[y] == n[y] {
      assert (multiset{x} + m)[y] == (multiset{x} + n)[y];
    }
  }

  /** Sorting has a single answer: any two ascending permutations of the
      same strings are equal. */
  lemma {:induction false} SortedPermutationUnique(a: seq<string>, b: seq<string>)
    requires SortedStrings(a) && SortedStrings(b)
    requires multiset(a) == multiset(b)
    ensures a == b
    decreases |a|
  {
    if |a| > 0 {
      SameHeads(a, b);
      assert a == [a[0]] + a[1..] && b == [b[0]] + b[1..];
      assert multiset(a[1..]) == multiset(b[1..]) by {
        assert multiset(a) == multiset{a[0]} + multiset(a[1..]);
        assert multiset(b) == multiset{b[0]} + multiset(b[1..]);
        CancelOne(a[0], multiset(a[1..]), multiset(b[1..]));
      }
      SortedPermutationUnique(a[1..], b[1..]);
    }
  }
}

=== FILE: wrappers.dfy ===
/** Optional values and success/failure results, used wherever the source
    returns `undefined`, `null`, or throws. */
module Wrappers {

  /** `None` stands for the source's `undefined` / `null`. */
  datatype Option<+T> = None | Some(value: T) {

    /** The value, or `default` when absent. Where the source writes
        `x || default`, falsy present values are handled by the caller. */
    function GetOr(default: T): T {
      match this
      case Some(v) => v
      case None => default
    }
  }

  /** The outcome of an operation that may throw: `Failure` carries the
      thrown error's message. */
  datatype Result<+R> = Success(value: R) | Failure(message: string)
}
